=== FILE: README.md ===
# User service: a Dafny model of the user-lifecycle workflows

The modelled service keeps the users of an institution in three places:

- a `users` table reached through a reactive CRUD repository;
- the identity provider's accounts (Firebase Authentication), keyed by uid, each with an email, a password and a custom `role` claim;
- a mail sender that delivers password-reset links.

`UserService` runs the workflows that touch these stores: create, update and delete users, change one's own email or password, request a password reset, and edit one's own profile. `SupabaseStorageService` turns a profile image sent as a data URI into an object in a storage bucket, and turns a public URL back into a delete request.

The model is pure Dafny:

- **Stores.** The three stores are values (`UserService.World`).
- **External calls.** Every external call is an outcome parameter. An `Err` stands for the exception that call would throw.
- **Results.** A workflow returns its result, the stores after it, and the trace of calls it made (`Calls.Call`).
- **What is proved.**
  - What each workflow returns and what it leaves behind on every failure path.
  - Which calls it makes, and in which order.
  - Whether the table and the provider still agree afterwards (`StoreConsistency`).

Files:

- `outcomes.dfy`: `Option` and `Result`.
- `text.dfy`: the Java/Spring string operations the code relies on. These are `contains`, `indexOf`, `split(regex)`, `split(regex, 2)`, `StringUtils.hasText` and `toUpperCase`.
- `storage.dfy`: `SupabaseStorageService`.
- `repository.dfy`: the users table and `UsersRepository`.
- `identity.dfy`: the provider's account operations.
- `calls.dfy`: call traces and the ordering predicates over them.
- `user_service.dfy`: the `UserService` workflows.
- `consistency.dfy`: agreement between the table and the provider across workflows.
- `readback.dfy`: what the read operations see after a workflow, and what repeating a workflow does.

Three points about the code shape the model:

- **Image store.** `UserService` never calls the image store, so the storage model stands on its own.
- **Reset-mail errors.** The reset-mail handler passes raw error text through: every error other than a provider `NOT_FOUND` becomes `"⚠️ Error: "` followed by the original message.
- **The service's own error is rewritten too.** Its not-registered error is thrown inside the handled chain. It comes out as `"⚠️ Error: ❌ El email no está registrado en el sistema."` (`UserService.NotRegisteredIsPrefixed`).

On partial failures, the code rolls nothing back: a workflow that fails half-way leaves the steps before the failure in place. Agreement between the stores is stated by `StoreConsistency.Consistent`. It compares each row's uid, email and role claim with the account it names. It ignores passwords, and it tolerates accounts that no row names. Measured by that predicate, three failure points break agreement:

- a claim push that fails after `updateUser` saved;
- a row deletion that fails after the account was deleted;
- a save that fails after the provider took the new email.

The `StoreConsistency` lemmas identify exactly these three. Other failures leave differences that the predicate does not measure:

- a claim failure in `createUser` leaves an account with no row (`StoreConsistency.ClaimFailureLeavesOrphan`);
- a failed save in `createUser` leaves an account, with its claim, that no row names;
- a failed save in `changePassword` leaves the account with the new password and the row with the old encoded one.

## Model

| member | source | states |
|---|---|---|
| Text.IndexOf | src/main/java/pe/edu/vallegrande/user/service/SupabaseStorageService.java:39 | `indexOf`: present iff the pattern occurs; the position is an occurrence with none before it |
| Text.IndexOfIsFirstOccurrence | src/main/java/pe/edu/vallegrande/user/service/SupabaseStorageService.java:90 | an occurrence with no earlier one is exactly what `indexOf` returns |
| Text.Segments | src/main/java/pe/edu/vallegrande/user/service/SupabaseStorageService.java:90 | the pieces between separators join back to the input and contain no separator |
| Text.DropTrailingEmpty | src/main/java/pe/edu/vallegrande/user/service/SupabaseStorageService.java:90 | `split` without a limit: a prefix of the pieces, no empty last piece, only empty pieces dropped |
| Text.Split | src/main/java/pe/edu/vallegrande/user/service/SupabaseStorageService.java:90 | `split` without a limit: the whole text when the separator does not occur; otherwise the segments up to the last non-empty one, only empty segments dropped; no piece contains the separator |
| Text.EmptySegmentsIffRepetition | src/main/java/pe/edu/vallegrande/user/service/SupabaseStorageService.java:90-91 | splitting gives only empty pieces iff the text is the separator repeated |
| Text.SplitSecondPiece | src/main/java/pe/edu/vallegrande/user/service/SupabaseStorageService.java:90-93 | `split` has a second piece iff the separator occurs and what follows is not just separators; that piece is the text between the first two separators |
| Text.SplitOnce | src/main/java/pe/edu/vallegrande/user/service/SupabaseStorageService.java:46-48 | `split(",", 2)`: two parts iff the separator occurs, rejoining to the input, the first part free of it |
| Text.ToUpper | src/main/java/pe/edu/vallegrande/user/service/UserService.java:56 | upper-casing keeps the length, turns each lower-case letter into its capital and keeps every other character |
| Text.UpperCaseIsFixed | src/main/java/pe/edu/vallegrande/user/service/UserService.java:108 | upper-case text is left unchanged, so upper-casing is idempotent |
| Text.HasText | src/main/java/pe/edu/vallegrande/user/service/SupabaseStorageService.java:39 | text needs at least one character, and an all-whitespace string has none |
| Text.ScanHasText | src/main/java/pe/edu/vallegrande/user/service/SupabaseStorageService.java:88 | Spring's scan (empty string rejected, then a search for a non-whitespace character) answers true iff the string has text |
| SupabaseStorage.DataUriHasComma | src/main/java/pe/edu/vallegrande/user/service/SupabaseStorageService.java:39-48 | a payload containing `base64,` always splits into two parts, so `parts[1]` cannot fail |
| SupabaseStorage.Content | src/main/java/pe/edu/vallegrande/user/service/SupabaseStorageService.java:46-48 | header, comma and content rebuild the payload; the header has no comma |
| SupabaseStorage.ExtensionFor | src/main/java/pe/edu/vallegrande/user/service/SupabaseStorageService.java:51-55 | the extension is empty or supported, and empty iff the header names none of the five MIME types |
| SupabaseStorage.ExtensionFollowsMimeTable | src/main/java/pe/edu/vallegrande/user/service/SupabaseStorageService.java:51-55 | the conditional chain equals the first hit in the ordered MIME table |
| SupabaseStorage.ObjectPath | src/main/java/pe/edu/vallegrande/user/service/SupabaseStorageService.java:63-64 | the path is the folder, a slash and the UUID, followed by the extension, and no more |
| SupabaseStorage.PublicUrl | src/main/java/pe/edu/vallegrande/user/service/SupabaseStorageService.java:79 | the URL is the project URL, then the public path, the bucket and a slash, then the object path, and no more |
| SupabaseStorage.UploadBase64Image | src/main/java/pe/edu/vallegrande/user/service/SupabaseStorageService.java:38-85 | no request, and an empty result, iff the guard, the MIME type or the decoding fails; otherwise one PUT into the bucket at the folder, a slash and the UUID, followed by the extension the header's MIME type selects, which is a supported one; an error iff the PUT fails, else the public URL of that path |
| SupabaseStorage.DeleteImage | src/main/java/pe/edu/vallegrande/user/service/SupabaseStorageService.java:87-100 | a DELETE is issued iff the URL has text, contains `/object/public/`, and what follows the first marker is not made only of further markers; it names the bucket and the second piece of the split; an error iff it fails; never a value |
| SupabaseStorage.FirstMarkerOfPublicUrl | src/main/java/pe/edu/vallegrande/user/service/SupabaseStorageService.java:79 | in a public URL, the first `/object/public/` is the one the URL template writes |
| SupabaseStorage.NoEarlyMarker | src/main/java/pe/edu/vallegrande/user/service/SupabaseStorageService.java:79 | no marker starts before the template's own |
| SupabaseStorage.DeleteOfPublicUrlNamesBucketTwice | src/main/java/pe/edu/vallegrande/user/service/SupabaseStorageService.java:79-97 | deleting by a public URL requests `bucket/path` inside the bucket: the bucket is named twice |
| SupabaseStorage.UploadThenDeleteNamesBucketTwice | src/main/java/pe/edu/vallegrande/user/service/SupabaseStorageService.java:63-97 | upload then delete: the delete request's path is the bucket, a slash and the uploaded path, not the uploaded path |
| SupabaseStorage.DeleteImageIntended | src/main/java/pe/edu/vallegrande/user/service/SupabaseStorageService.java:87-100 | corrected deletion: its request names the bucket, and the bucket, a slash and its path rebuild the URL's object part |
| SupabaseStorage.DeleteOfPublicUrlRemovesObject | src/main/java/pe/edu/vallegrande/user/service/SupabaseStorageService.java:79-97 | corrected round trip: the public URL of a path leads to a delete of exactly that path |
| SupabaseStorage.UploadThenDeleteRemovesObject | src/main/java/pe/edu/vallegrande/user/service/SupabaseStorageService.java:63-97 | upload then corrected delete: the delete names the bucket and path the PUT wrote |
| UsersRepository.FindIndexFrom | src/main/java/pe/edu/vallegrande/user/repository/UsersRepository.java:8-12 | a derived lookup returns the first matching row at or after the start, or no row when none matches |
| UsersRepository.Find | src/main/java/pe/edu/vallegrande/user/repository/UsersRepository.java:8-12 | a lookup finds a row iff some stored row matches; the row found matches and is stored |
| UsersRepository.FoundByIdIsUnique | src/main/java/pe/edu/vallegrande/user/repository/UsersRepository.java:8 | under the primary key, the row found by id is the only one with it |
| UsersRepository.Save | src/main/java/pe/edu/vallegrande/user/repository/UsersRepository.java:8 | `save` inserts a row without id under the next id at the end, or overwrites the row with the same id in place; the table stays well formed |
| UsersRepository.SaveThenFind | src/main/java/pe/edu/vallegrande/user/repository/UsersRepository.java:8 | reading back by id what `save` returned gives that row |
| UsersRepository.InsertKeepsInvariants | src/main/java/pe/edu/vallegrande/user/service/UserService.java:39-41 | inserting a row with a fresh email keeps ids distinct and emails unique |
| UsersRepository.Without | src/main/java/pe/edu/vallegrande/user/repository/UsersRepository.java:8 | the kept rows are exactly the rows without that id |
| UsersRepository.WithoutKeepsDistinctIds | src/main/java/pe/edu/vallegrande/user/repository/UsersRepository.java:8 | dropping rows keeps ids distinct |
| UsersRepository.DeleteById | src/main/java/pe/edu/vallegrande/user/service/UserService.java:172 | `deleteById`: exactly the other rows remain, none is found by that id, and both invariants are kept |
| UsersRepository.KeptRowsKeepUniqueEmails | src/main/java/pe/edu/vallegrande/user/repository/UsersRepository.java:8 | a subset of rows with distinct ids keeps emails unique |
| IdentityProvider.CreateAccount | src/main/java/pe/edu/vallegrande/user/service/UserService.java:43-49 | a new account under the new uid: unverified, enabled, no claim; every other account unchanged |
| IdentityProvider.SetRoleClaim | src/main/java/pe/edu/vallegrande/user/service/UserService.java:56 | the claim becomes the single role on that uid; every other account unchanged |
| IdentityProvider.UpdateEmail | src/main/java/pe/edu/vallegrande/user/service/UserService.java:188-191 | only that account's email changes |
| IdentityProvider.UpdatePassword | src/main/java/pe/edu/vallegrande/user/service/UserService.java:217-220 | only that account's password changes |
| IdentityProvider.DeleteAccount | src/main/java/pe/edu/vallegrande/user/service/UserService.java:164 | exactly that uid disappears; the rest unchanged |
| UserService.ToDto | src/main/java/pe/edu/vallegrande/user/service/UserService.java:275-288 | the public view loses only the password: the row is recovered from the view and the hash |
| UserService.PrimaryRoleClaim | src/main/java/pe/edu/vallegrande/user/service/UserService.java:54-56 | the claim is upper case, `USER` for no roles, otherwise the first role with each lower-case letter replaced by its capital, character by character; an upper-case first role is kept as is |
| UserService.OverwriteChangesOneRow | src/main/java/pe/edu/vallegrande/user/service/UserService.java:102 | saving an edited stored row changes that row alone |
| UserService.OverwriteKeepsEmailsUnique | src/main/java/pe/edu/vallegrande/user/service/UserService.java:198-199 | an overwrite with an email no other row has keeps the invariants |
| UserService.StoreEdit | src/main/java/pe/edu/vallegrande/user/service/UserService.java:102 | an edit saved in place changes only its row and keeps the invariants when the email stays unique |
| UserService.CreateUser | src/main/java/pe/edu/vallegrande/user/service/UserService.java:38-81 | a taken email is rejected with nothing changed; success iff every step succeeds; no row without success; a failed claim leaves a claimless account; on success one row appended with the request's fields, the encoded password and the new uid, and the account holds the primary role claim; no other account changes |
| UserService.CreateUserCalls | src/main/java/pe/edu/vallegrande/user/service/UserService.java:38-81 | a taken email makes no provider call and no write; the provider is written before the table; one claim push iff the account was created; a row write iff creation and claim succeeded |
| UserService.CreateUserCallOrder | src/main/java/pe/edu/vallegrande/user/service/UserService.java:38-81 | the calls come in this order: the email check, the account creation, the claim for that uid and the primary role, and the save of the new row; each later call happens only when the steps before it succeeded |
| UserService.UpdateUser | src/main/java/pe/edu/vallegrande/user/service/UserService.java:86-117 | unknown id or failed save changes nothing; success iff found, saved and (claim pushed ⇒ push succeeded); only that row changes, keeping id, uid, email and password and taking the six fields and the roles; accounts change only by a successful push |
| UserService.UpdateUserCalls | src/main/java/pe/edu/vallegrande/user/service/UserService.java:86-117 | unknown id makes no provider call and no write; the table is written before the provider; one claim push exactly when roles changed on a row with a uid and the save succeeded |
| UserService.UpdateUserCallOrder | src/main/java/pe/edu/vallegrande/user/service/UserService.java:86-117 | the calls in order: the id lookup; for a known id, the save of the edited row, so the table is written iff the id is known; then the claim for the row's uid and the new primary role, only when the save succeeded and the roles changed on a row with a uid; nothing after a failure |
| UserService.DeleteUser | src/main/java/pe/edu/vallegrande/user/service/UserService.java:157-173 | success iff the row exists, its account deletion (when it has a uid) succeeded and the row deletion succeeded; unknown id changes nothing; no uid keeps the accounts; a failed account delete changes nothing; a failed row delete keeps the table; success deletes the account and the row |
| UserService.DeleteUserCalls | src/main/java/pe/edu/vallegrande/user/service/UserService.java:157-173 | unknown id makes no call beyond the lookup; provider before table; no provider call without a uid; with a uid the account delete comes second and the row delete happens iff it succeeded |
| UserService.RowsWithUid | src/main/java/pe/edu/vallegrande/user/service/UserService.java:123-125 | the filter keeps only stored rows carrying the uid |
| UserService.SelfLookup | src/main/java/pe/edu/vallegrande/user/service/UserService.java:123-125 | a row is found iff some row carries the uid, and it is the first such row |
| UserService.ScanKeepsFirstMatch | src/main/java/pe/edu/vallegrande/user/service/UserService.java:179-181 | the head of the filtered scan from a position is the first match from that position |
| UserService.SelfLookupIsFindByFirebaseUid | src/main/java/pe/edu/vallegrande/user/service/UserService.java:258 | the findAll/filter/next scan of the self-service workflows equals `findByFirebaseUid` |
| UserService.ChangeEmail | src/main/java/pe/edu/vallegrande/user/service/UserService.java:178-202 | success iff the caller has a row, no row has the new email, and both the provider update and the save succeed; unknown caller or taken email changes nothing with its message; a failed provider update changes nothing; no row change without success; the account's email changes iff the provider update succeeded; on success only the caller's row changes, to the new email |
| UserService.ChangeEmailCalls | src/main/java/pe/edu/vallegrande/user/service/UserService.java:178-202 | the provider is called iff the caller exists and the email is free; the table is written iff the provider update also succeeded; provider before table |
| UserService.ChangeEmailCallOrder | src/main/java/pe/edu/vallegrande/user/service/UserService.java:178-202 | the calls in order: the scan, the check of the new email, the provider's email update for the uid, the save of the caller's row with the new email; each only after the step before it passed |
| UserService.ChangePassword | src/main/java/pe/edu/vallegrande/user/service/UserService.java:209-229 | success iff the caller has a row and both the provider update and the save succeed; unknown caller or failed provider update changes nothing; the account's password changes iff the provider update succeeded; on success only the caller's row changes, to the encoded password |
| UserService.ChangePasswordCalls | src/main/java/pe/edu/vallegrande/user/service/UserService.java:209-229 | the provider is called iff the caller exists; the table is written iff the update succeeded; provider before table |
| UserService.ChangePasswordCallOrder | src/main/java/pe/edu/vallegrande/user/service/UserService.java:209-229 | the calls in order: the scan, the provider's password update for the uid, the save of the caller's row with the encoded password; each only after the step before it passed |
| UserService.Rewrite | src/main/java/pe/edu/vallegrande/user/service/UserService.java:245-251 | a message mentioning `NOT_FOUND` becomes the not-in-provider text; any other keeps its text behind the warning prefix |
| UserService.NotRegisteredIsPrefixed | src/main/java/pe/edu/vallegrande/user/service/UserService.java:238-249 | the service's own not-registered error comes out behind the warning prefix |
| UserService.SendPasswordResetEmail | src/main/java/pe/edu/vallegrande/user/service/UserService.java:234-252 | success iff the provider knows the email, a row has it, and link generation and sending succeed; table and accounts never change; mail only on success; an email the provider lacks gives the rewritten provider error; a failed lookup, link generation or send gives that call's own message, rewritten; an email without a row gives the prefixed not-registered error; success mails the generated link and reports the address |
| UserService.SendPasswordResetEmailCalls | src/main/java/pe/edu/vallegrande/user/service/UserService.java:234-252 | the provider lookup comes first; a link is requested iff both stores know the email; a mail is sent iff the link was generated; the table is never written |
| UserService.UpdateMyProfile | src/main/java/pe/edu/vallegrande/user/service/UserService.java:257-270 | success iff the caller has a row and the save succeeds; unknown caller changes nothing; accounts and outbox never change; failure changes nothing; success changes only the caller's row, taking the six profile fields and keeping id, uid, email, password and roles |
| UserService.UpdateMyProfileCalls | src/main/java/pe/edu/vallegrande/user/service/UserService.java:257-270 | never calls the provider; writes the table iff the caller exists |
| UserService.UpdateMyProfileRequest | src/main/java/pe/edu/vallegrande/user/controller/UserController.java:45-61 | a request missing name, last name or document number is refused before any call; a complete one goes on to `updateMyProfile` and succeeds iff the caller has a row and the save succeeds |
| UserService.FindMyProfile | src/main/java/pe/edu/vallegrande/user/service/UserService.java:122-128 | not found iff no row carries the uid; otherwise the view of the first such row, the same row the other self-service workflows look up |
| UserService.FindAllUsers | src/main/java/pe/edu/vallegrande/user/service/UserService.java:133-136 | one view per row, in order, each recovering its row |
| UserService.FindUserById | src/main/java/pe/edu/vallegrande/user/service/UserService.java:141-144 | empty iff no row has the id; otherwise the view of the first row with it |
| UserService.FindUserByEmail | src/main/java/pe/edu/vallegrande/user/service/UserService.java:149-152 | empty iff no row has the email; otherwise the view of the first row with it |
| StoreConsistency.SameTableKeepsConsistency | src/main/java/pe/edu/vallegrande/user/service/UserService.java:234-252 | with the table unchanged and the rows' accounts keeping email and claim, agreement holds |
| StoreConsistency.EditKeepsConsistency | src/main/java/pe/edu/vallegrande/user/service/UserService.java:102 | an in-place edit of one row that keeps its uid and stays linked, with only its account changed, keeps agreement |
| StoreConsistency.CreateUserKeepsConsistency | src/main/java/pe/edu/vallegrande/user/service/UserService.java:38-81 | with a fresh uid, `createUser` keeps table and provider in agreement whatever fails |
| StoreConsistency.AppendKeepsConsistency | src/main/java/pe/edu/vallegrande/user/service/UserService.java:75 | appending a row linked to a brand-new account keeps agreement |
| StoreConsistency.ClaimFailureLeavesOrphan | src/main/java/pe/edu/vallegrande/user/service/UserService.java:49-59 | a failed claim push leaves an account with the request's email that no row names |
| StoreConsistency.UpdateUserKeepsConsistency | src/main/java/pe/edu/vallegrande/user/service/UserService.java:86-117 | agreement holds after `updateUser` unless the save succeeded and the required claim push failed |
| StoreConsistency.UpdateUserClaimFailureBreaksConsistency | src/main/java/pe/edu/vallegrande/user/service/UserService.java:102-111 | when the new roles call for a different claim, that failure does break agreement |
| StoreConsistency.KeptRowsKeepUniqueUids | src/main/java/pe/edu/vallegrande/user/service/UserService.java:172 | a subset of rows with distinct ids keeps uids unique |
| StoreConsistency.DeleteUserKeepsConsistency | src/main/java/pe/edu/vallegrande/user/service/UserService.java:157-173 | agreement holds after `deleteUser` unless the account was deleted and the row deletion failed |
| StoreConsistency.RemoveRowKeepsConsistency | src/main/java/pe/edu/vallegrande/user/service/UserService.java:164-172 | removing a row and at most its own account keeps agreement |
| StoreConsistency.DeleteRowFailureBreaksConsistency | src/main/java/pe/edu/vallegrande/user/service/UserService.java:162-172 | that failure does break agreement: the row's uid names no account |
| StoreConsistency.ChangeEmailKeepsConsistency | src/main/java/pe/edu/vallegrande/user/service/UserService.java:178-202 | agreement holds after `changeEmail` unless the provider took the new email and the save failed |
| StoreConsistency.ChangeEmailSaveFailureBreaksConsistency | src/main/java/pe/edu/vallegrande/user/service/UserService.java:185-199 | that failure does break agreement: row and account hold different emails |
| StoreConsistency.ChangePasswordKeepsConsistency | src/main/java/pe/edu/vallegrande/user/service/UserService.java:209-229 | `changePassword` keeps agreement whatever fails |
| StoreConsistency.UpdateMyProfileKeepsConsistency | src/main/java/pe/edu/vallegrande/user/service/UserService.java:257-270 | `updateMyProfile` keeps agreement whatever fails |
| ReadBack.AppendedRowIsFirstMatch | src/main/java/pe/edu/vallegrande/user/repository/UsersRepository.java:11-12 | a row appended to a table where nothing else matches is the one a lookup finds |
| ReadBack.CreatedUserIsFoundByEmail | src/main/java/pe/edu/vallegrande/user/service/UserService.java:38-81 | after a successful `createUser`, `findByEmail` on the request's email returns the view `createUser` returned |
| ReadBack.CreatedUserIsFoundByUid | src/main/java/pe/edu/vallegrande/user/service/UserService.java:122-128 | after a successful `createUser` under a uid no row had, the self-service lookup by that uid finds the new row |
| ReadBack.ChangedEmailIsFound | src/main/java/pe/edu/vallegrande/user/service/UserService.java:178-202 | after a successful `changeEmail`, the new email finds the caller's view and the old email finds nothing |
| ReadBack.RepeatedUpdateIsQuiet | src/main/java/pe/edu/vallegrande/user/service/UserService.java:86-117 | repeating an administrator edit pushes no claim, keeps the accounts, and once saved leaves stores and result as the first edit did |
| ReadBack.RepeatedProfileEditIsIdempotent | src/main/java/pe/edu/vallegrande/user/service/UserService.java:257-270 | repeating one's own profile edit changes no store; once saved it returns the same view |
| ReadBack.SameIdsSameIndex | src/main/java/pe/edu/vallegrande/user/service/UserService.java:87 | an in-place edit that keeps id and uid keeps the row first for lookups by either |
| ReadBack.OverwriteWithSameRow | src/main/java/pe/edu/vallegrande/user/repository/UsersRepository.java:8 | saving a stored row unchanged leaves the table as it was |

## Left out

- Reactor: `Mono`/`Flux` scheduling, laziness and threading are not modelled. Each workflow is the sequential composition of its steps, and a `Mono.error` is an `Err` result.
- The Firebase and Supabase SDKs, the database driver and the mail transport are not modelled. Their calls are outcome parameters, and the stores they change are values.
- Injected collaborators are parameters:
  - BCrypt is the `encode` parameter;
  - `UUID.randomUUID` is the `uuid` parameter;
  - Base64 decoding is the `decodes` predicate (a decoding failure is caught and gives an empty result).
- URI encoding of the `{bucket}`/`{path}` template variables: requests are recorded by their template variables, not as encoded URIs.
- The WebClient's base URL and API-key headers are fixed configuration, not modelled.
- Provider behaviour on a uid with no account is not visible. A write to such a uid changes nothing in the model.
- StoreConsistency.Linked: the provider's email matching is modelled as exact string equality. `StoreConsistency.Linked` and `IdentityProvider.HasAccountFor` compare emails verbatim. The real provider normalises email case, so two emails differing only in case are one account there and two here.
- UserService.SendPasswordResetEmail: the provider lookup succeeds in the model only for an exactly matching stored email. An account stored under a different case of the same email is reported as absent, whereas the real provider finds it.
- Whether the provider's `createUser` returns a fresh uid is an assumption of `StoreConsistency.CreateUserKeepsConsistency`, not something the model derives.
- Text.ToUpper: only the ASCII letters a to z are upper-cased. Java's locale-sensitive, full-Unicode `toUpperCase` is not modelled.
- Null references are not modelled:
  - a null role list, email, uid or exception message, where the Java code would throw a `NullPointerException`;
  - nullable profile fields are `Option`s, copied as given.
- `UserDto.fromEntity`, used by `updateMyProfile` (UserService.java:269), is taken to equal `toDto`. The DTO and entity classes are not part of this model; their fields are the ones `toDto` and the setters use.
- Logging, `System.out` output and the mail's body text (`EmailService`) are not modelled. The mail is recorded as recipient and link.
- Controllers, security configuration and Firebase initialisation are not modelled. The exception is the guard of `PUT /api/users/me` (UserController.java:45-61), modelled as `UserService.UpdateMyProfileRequest`.
- UserServiceTest.java is not modelled as a test. It builds the service with a fourth, storage collaborator that the current constructor does not take. Its one scenario, `findMyProfile` over a single matching row, is an instance of `UserService.FindMyProfile`'s contract.
- The repository's SQL is not modelled: a derived lookup returns the first matching row in table order, and `findAll` returns the rows in that order. This choice matters only when two rows share an email or a uid, which `UsersRepository.UniqueEmails` and `StoreConsistency.UniqueUids` rule out. On such duplicate rows `UserService.SelfLookupIsFindByFirebaseUid` still equates the scan with the uid lookup, whereas the real single-result query would then behave differently (an error or an arbitrary row).

## Findings

| source | as written | input that shows it | evidently intended | confidence | as-written member | corrected member |
|---|---|---|---|---|---|---|
| src/main/java/pe/edu/vallegrande/user/service/SupabaseStorageService.java:90-97 | the object path sent to `DELETE /object/{bucket}/{path}` is everything after `/object/public/`, which starts with the bucket | project `https://p.supabase.co`, bucket `avatars`, uploaded path `users/a.png`: the public URL is `https://p.supabase.co/storage/v1/object/public/avatars/users/a.png`, and the delete targets `avatars/users/a.png` inside bucket `avatars` | delete the uploaded object `users/a.png` in bucket `avatars` | medium, not executed | SupabaseStorage.DeleteOfPublicUrlNamesBucketTwice | SupabaseStorage.DeleteOfPublicUrlRemovesObject |

=== FILE: calls.dfy ===
/** The calls a workflow makes to its collaborators, in the order it makes
    them. A workflow returns this trace next to its result, which lets the
    contracts speak about ordering and about calls that were never made. */
module Calls {
  import opened UsersRepository

  datatype Call =
    // the users table
    | RepoFindById(id: int)
    | RepoFindByEmail(email: string)
    | RepoFindByUid(uid: Uid)
    | RepoFindAll
    | RepoSave(row: User)
    | RepoDeleteById(id: int)
    // the identity provider
    | ProviderCreate(email: string, password: string)
    | ProviderSetClaims(uid: Uid, role: string)
    | ProviderUpdateEmail(uid: Uid, email: string)
    | ProviderUpdatePassword(uid: Uid, password: string)
    | ProviderDelete(uid: Uid)
    | ProviderLookup(email: string)
    | ProviderResetLink(email: string)
    // the mail sender
    | MailSend(to: string, link: string)

  predicate IsProviderCall(c: Call) {
    || c.ProviderCreate? || c.ProviderSetClaims? || c.ProviderUpdateEmail?
    || c.ProviderUpdatePassword? || c.ProviderDelete? || c.ProviderLookup?
    || c.ProviderResetLink?
  }

  /** A provider call that changes an account. */
  predicate IsProviderWrite(c: Call) {
    || c.ProviderCreate? || c.ProviderSetClaims? || c.ProviderUpdateEmail?
    || c.ProviderUpdatePassword? || c.ProviderDelete?
  }

  predicate IsTableWrite(c: Call) {
    c.RepoSave? || c.RepoDeleteById?
  }

  predicate CallsProvider(trace: seq<Call>) {
    exists i :: 0 <= i < |trace| && IsProviderCall(trace[i])
  }

  predicate WritesTable(trace: seq<Call>) {
    exists i :: 0 <= i < |trace| && IsTableWrite(trace[i])
  }

  predicate SendsMail(trace: seq<Call>) {
    exists i :: 0 <= i < |trace| && trace[i].MailSend?
  }

  predicate AsksForResetLink(trace: seq<Call>) {
    exists i :: 0 <= i < |trace| && trace[i].ProviderResetLink?
  }

  /** No provider write follows a table write: the provider is changed
      first. */
  predicate ProviderWritesFirst(trace: seq<Call>) {
    forall i, j :: 0 <= i < j < |trace| && IsTableWrite(trace[i]) ==> !IsProviderWrite(trace[j])
  }

  /** No table write follows a provider write: the table is changed first. */
  predicate TableWritesFirst(trace: seq<Call>) {
    forall i, j :: 0 <= i < j < |trace| && IsProviderWrite(trace[i]) ==> !IsTableWrite(trace[j])
  }

  /** No role claim is pushed. */
  predicate PushesNoClaim(trace: seq<Call>) {
    forall i :: 0 <= i < |trace| ==> !trace[i].ProviderSetClaims?
  }

  /** Exactly one role claim is pushed, and it sets `role` on `uid`. */
  predicate PushesOneClaim(trace: seq<Call>, uid: Uid, role: string) {
    exists i :: 0 <= i < |trace| && trace[i] == ProviderSetClaims(uid, role)
                && forall j :: 0 <= j < |trace| && j != i ==> !trace[j].ProviderSetClaims?
  }

  /* The predicates above evaluated on the short traces the workflows make. */

  lemma Trace1(a: Call)
    ensures CallsProvider([a]) == IsProviderCall(a)
    ensures WritesTable([a]) == IsTableWrite(a)
    ensures ProviderWritesFirst([a]) && TableWritesFirst([a])
    ensures PushesNoClaim([a]) == !a.ProviderSetClaims?
    ensures AsksForResetLink([a]) == a.ProviderResetLink? && SendsMail([a]) == a.MailSend?
  {
    assert [a][0] == a;
  }

  lemma Trace2(a: Call, b: Call)
    ensures CallsProvider([a, b]) == (IsProviderCall(a) || IsProviderCall(b))
    ensures WritesTable([a, b]) == (IsTableWrite(a) || IsTableWrite(b))
    ensures ProviderWritesFirst([a, b]) == !(IsTableWrite(a) && IsProviderWrite(b))
    ensures TableWritesFirst([a, b]) == !(IsProviderWrite(a) && IsTableWrite(b))
    ensures PushesNoClaim([a, b]) == (!a.ProviderSetClaims? && !b.ProviderSetClaims?)
    ensures AsksForResetLink([a, b]) == (a.ProviderResetLink? || b.ProviderResetLink?)
    ensures SendsMail([a, b]) == (a.MailSend? || b.MailSend?)
  {
    var t := [a, b];
    assert t[0] == a && t[1] == b;
  }

  lemma Trace3(a: Call, b: Call, c: Call)
    ensures CallsProvider([a, b, c]) == (IsProviderCall(a) || IsProviderCall(b) || IsProviderCall(c))
    ensures WritesTable([a, b, c]) == (IsTableWrite(a) || IsTableWrite(b) || IsTableWrite(c))
    ensures ProviderWritesFirst([a, b, c]) ==
              !((IsTableWrite(a) && (IsProviderWrite(b) || IsProviderWrite(c))) || (IsTableWrite(b) && IsProviderWrite(c)))
    ensures TableWritesFirst([a, b, c]) ==
              !((IsProviderWrite(a) && (IsTableWrite(b) || IsTableWrite(c))) || (IsProviderWrite(b) && IsTableWrite(c)))
    ensures PushesNoClaim([a, b, c]) ==
              (!a.ProviderSetClaims? && !b.ProviderSetClaims? && !c.ProviderSetClaims?)
    ensures c.ProviderSetClaims? && !a.ProviderSetClaims? && !b.ProviderSetClaims? ==>
              PushesOneClaim([a, b, c], c.uid, c.role)
    ensures AsksForResetLink([a, b, c]) == (a.ProviderResetLink? || b.ProviderResetLink? || c.ProviderResetLink?)
    ensures SendsMail([a, b, c]) == (a.MailSend? || b.MailSend? || c.MailSend?)
  {
    var t := [a, b, c];
    assert t[0] == a && t[1] == b && t[2] == c;
  }

  lemma Trace4(a: Call, b: Call, c: Call, d: Call)
    ensures CallsProvider([a, b, c, d]) ==
              (IsProviderCall(a) || IsProviderCall(b) || IsProviderCall(c) || IsProviderCall(d))
    ensures WritesTable([a, b, c, d]) ==
              (IsTableWrite(a) || IsTableWrite(b) || IsTableWrite(c) || IsTableWrite(d))
    ensures !IsTableWrite(a) && !IsTableWrite(b) && !IsTableWrite(c) ==> ProviderWritesFirst([a, b, c, d])
    ensures !IsProviderWrite(a) && !IsProviderWrite(b) && !IsProviderWrite(c) && !IsProviderWrite(d) ==>
              TableWritesFirst([a, b, c, d])
    ensures !a.ProviderSetClaims? && !b.ProviderSetClaims? && !c.ProviderSetClaims? && !d.ProviderSetClaims? ==>
              PushesNoClaim([a, b, c, d])
    ensures c.ProviderSetClaims? && !a.ProviderSetClaims? && !b.ProviderSetClaims? && !d.ProviderSetClaims? ==>
              PushesOneClaim([a, b, c, d], c.uid, c.role)
    ensures AsksForResetLink([a, b, c, d]) ==
              (a.ProviderResetLink? || b.ProviderResetLink? || c.ProviderResetLink? || d.ProviderResetLink?)
    ensures SendsMail([a, b, c, d]) == (a.MailSend? || b.MailSend? || c.MailSend? || d.MailSend?)
  {
    var t := [a, b, c, d];
    assert t[0] == a && t[1] == b && t[2] == c && t[3] == d;
  }
}

=== FILE: consistency.dfy ===
/** Whether the users table and the identity provider agree, and which
    workflow failures can break that agreement.

    The service keeps two copies of a user's sign-in email and role: the row
    and the provider account named by the row's uid. No workflow compensates
    a failed step, so the copies agree after a workflow only when its steps
    went through, or failed before the first write. */
module StoreConsistency {
  import opened Outcomes
  import opened UsersRepository
  import opened IdentityProvider
  import opened UserService

  /** No two rows carry the same uid. */
  predicate UniqueUids(t: Table) {
    forall i, j :: 0 <= i < j < |t.rows| && t.rows[i].firebaseUid.Some? ==>
      t.rows[i].firebaseUid != t.rows[j].firebaseUid
  }

  /** A row with a uid has an account under it, with the row's email and the
      claim the row's roles call for. */
  predicate Linked(u: User, a: Accounts) {
    u.firebaseUid.Some? ==>
      && u.firebaseUid.value in a
      && a[u.firebaseUid.value].email == u.email
      && a[u.firebaseUid.value].roleClaim == Some(PrimaryRoleClaim(u.role))
  }

  predicate Consistent(w: World) {
    && TableInv(w.table)
    && UniqueUids(w.table)
    && forall i :: 0 <= i < |w.table.rows| ==> Linked(w.table.rows[i], w.accounts)
  }

  /* ---------------------------------------------------------------- */
  /* Frames                                                            */
  /* ---------------------------------------------------------------- */

  /** The accounts named by rows keep their email and claim. */
  predicate KeepsRowAccounts(t: Table, a: Accounts, a': Accounts) {
    forall i :: 0 <= i < |t.rows| && t.rows[i].firebaseUid.Some? && t.rows[i].firebaseUid.value in a ==>
      && t.rows[i].firebaseUid.value in a'
      && a'[t.rows[i].firebaseUid.value].email == a[t.rows[i].firebaseUid.value].email
      && a'[t.rows[i].firebaseUid.value].roleClaim == a[t.rows[i].firebaseUid.value].roleClaim
  }

  lemma SameTableKeepsConsistency(w: World, w': World)
    requires Consistent(w)
    requires w'.table == w.table
    requires KeepsRowAccounts(w.table, w.accounts, w'.accounts)
    ensures Consistent(w')
  {
    forall i | 0 <= i < |w.table.rows|
      ensures Linked(w'.table.rows[i], w'.accounts)
    {
      assert Linked(w.table.rows[i], w.accounts);
    }
  }

  /** One row rewritten in place, with its uid kept and only the account
      under that uid changed. */
  lemma EditKeepsConsistency(w: World, w': World, k: nat)
    requires Consistent(w)
    requires k < |w.table.rows|
    requires OnlyRowChanged(w.table, w'.table, k) && TableInv(w'.table)
    requires w'.table.rows[k].firebaseUid == w.table.rows[k].firebaseUid
    requires Linked(w'.table.rows[k], w'.accounts)
    requires forall v :: v in w.accounts && Some(v) != w.table.rows[k].firebaseUid ==>
               v in w'.accounts && w'.accounts[v] == w.accounts[v]
    ensures Consistent(w')
  {
    var rows, rows' := w.table.rows, w'.table.rows;
    forall i, j | 0 <= i < j < |rows'| && rows'[i].firebaseUid.Some?
      ensures rows'[i].firebaseUid != rows'[j].firebaseUid
    {
      assert rows'[i].firebaseUid == rows[i].firebaseUid;
      assert rows'[j].firebaseUid == rows[j].firebaseUid;
    }
    forall i | 0 <= i < |rows'| && i != k
      ensures Linked(rows'[i], w'.accounts)
    {
      assert rows'[i] == rows[i];
      assert Linked(rows[i], w.accounts);
      if rows[i].firebaseUid.Some? {
        if i < k {
          assert rows[i].firebaseUid != rows[k].firebaseUid;
        } else {
          assert rows[k].firebaseUid.Some? ==> rows[k].firebaseUid != rows[i].firebaseUid;
        }
      }
    }
  }

  /* ---------------------------------------------------------------- */
  /* createUser                                                        */
  /* ---------------------------------------------------------------- */

  /** With a uid the provider has not handed out before, `createUser` keeps
      the stores consistent whatever fails: a row is only written after the
      claim, and an account without a row breaks nothing. */
  lemma CreateUserKeepsConsistency(w: World, dto: UserCreateDto, encode: string -> string,
                                   created: Result<Uid>, claimed: Result<()>, saved: Result<()>)
    requires Consistent(w)
    requires created.Ok? ==> created.value !in w.accounts
    ensures Consistent(CreateUser(w, dto, encode, created, claimed, saved).world)
  {
    var s := CreateUser(w, dto, encode, created, claimed, saved);
    var rows := w.table.rows;
    assert KeepsRowAccounts(w.table, w.accounts, s.world.accounts) by {
      forall i | 0 <= i < |rows| && rows[i].firebaseUid.Some? && rows[i].firebaseUid.value in w.accounts
        ensures rows[i].firebaseUid.value in s.world.accounts
                && s.world.accounts[rows[i].firebaseUid.value] == w.accounts[rows[i].firebaseUid.value]
      {
      }
    }
    if s.result.Err? {
      SameTableKeepsConsistency(w, s.world);
    } else {
      AppendKeepsConsistency(w, s.world);
    }
  }

  /** One row appended for an account no stored row names, linked to it. */
  lemma AppendKeepsConsistency(w: World, w': World)
    requires Consistent(w)
    requires |w'.table.rows| == |w.table.rows| + 1 && w'.table.rows[..|w.table.rows|] == w.table.rows
    requires TableInv(w'.table)
    requires var row := w'.table.rows[|w.table.rows|];
             row.firebaseUid.Some? && row.firebaseUid.value !in w.accounts && Linked(row, w'.accounts)
    requires KeepsRowAccounts(w.table, w.accounts, w'.accounts)
    ensures Consistent(w')
  {
    var rows, rows' := w.table.rows, w'.table.rows;
    var n := |rows|;
    forall i | 0 <= i < n
      ensures rows'[i] == rows[i] && Linked(rows[i], w.accounts)
    {
      assert rows'[..n][i] == rows'[i];
    }
    forall i, j | 0 <= i < j < |rows'| && rows'[i].firebaseUid.Some?
      ensures rows'[i].firebaseUid != rows'[j].firebaseUid
    {
    }
    forall i | 0 <= i < n
      ensures Linked(rows'[i], w'.accounts)
    {
    }
  }

  /** A failed claim push leaves an account that no row names: the orphan
      `createUser` does not clean up. */
  lemma ClaimFailureLeavesOrphan(w: World, dto: UserCreateDto, encode: string -> string,
                                 created: Result<Uid>, claimed: Result<()>, saved: Result<()>)
    requires Consistent(w)
    requires !EmailTaken(w.table, dto.email)
    requires created.Ok? && created.value !in w.accounts
    requires claimed.Err?
    ensures var s := CreateUser(w, dto, encode, created, claimed, saved);
            && s.result.Err?
            && created.value in s.world.accounts
            && s.world.accounts[created.value].email == dto.email
            && forall i :: 0 <= i < |s.world.table.rows| ==> s.world.table.rows[i].firebaseUid != Some(created.value)
  {
    var s := CreateUser(w, dto, encode, created, claimed, saved);
    forall i | 0 <= i < |s.world.table.rows|
      ensures s.world.table.rows[i].firebaseUid != Some(created.value)
    {
      assert Linked(w.table.rows[i], w.accounts);
    }
  }

  /* ---------------------------------------------------------------- */
  /* updateUser                                                        */
  /* ---------------------------------------------------------------- */

  /** `updateUser` keeps the stores consistent unless the claim push fails
      after the new roles were saved. */
  lemma UpdateUserKeepsConsistency(w: World, id: int, dto: UserDto, saved: Result<()>, claimed: Result<()>)
    requires Consistent(w)
    ensures var s := UpdateUser(w, id, dto, saved, claimed);
            || Consistent(s.world)
            || (&& FindById(w.table, id).Some? && saved.Ok?
                && PushesClaimOnUpdate(FindById(w.table, id).value, dto) && claimed.Err?)
  {
    var s := UpdateUser(w, id, dto, saved, claimed);
    match FindIndex(w.table.rows, ById(id))
    case None =>
    case Some(k) =>
      var before := w.table.rows[k];
      if saved.Ok? && !(PushesClaimOnUpdate(before, dto) && claimed.Err?) {
        var after := s.world.table.rows[k];
        assert Linked(before, w.accounts);
        if PushesClaimOnUpdate(before, dto) {
          assert s.world.accounts == SetRoleClaim(w.accounts, before.firebaseUid.value, PrimaryRoleClaim(dto.role));
        } else {
          assert s.world.accounts == w.accounts;
        }
        EditKeepsConsistency(w, s.world, k);
      }
  }

  /** When the new roles call for a different claim, a failed claim push
      leaves the row's roles and the account's claim disagreeing. */
  lemma UpdateUserClaimFailureBreaksConsistency(w: World, id: int, dto: UserDto, saved: Result<()>, claimed: Result<()>)
    requires Consistent(w)
    requires FindById(w.table, id).Some? && FindById(w.table, id).value.firebaseUid.Some?
    requires PrimaryRoleClaim(dto.role) != PrimaryRoleClaim(FindById(w.table, id).value.role)
    requires saved.Ok? && claimed.Err?
    ensures !Consistent(UpdateUser(w, id, dto, saved, claimed).world)
  {
    var s := UpdateUser(w, id, dto, saved, claimed);
    var k := FindIndex(w.table.rows, ById(id)).value;
    assert Linked(w.table.rows[k], w.accounts);
    assert !Linked(s.world.table.rows[k], s.world.accounts);
  }

  /* ---------------------------------------------------------------- */
  /* deleteUser                                                        */
  /* ---------------------------------------------------------------- */

  /** Rows kept from a table whose uids are unique keep them unique. */
  lemma KeptRowsKeepUniqueUids(t: Table, r: Table)
    requires Wf(t) && UniqueUids(t)
    requires DistinctIds(r.rows)
    requires forall u :: u in r.rows ==> u in t.rows
    ensures UniqueUids(r)
  {
    forall i, j | 0 <= i < j < |r.rows| && r.rows[i].firebaseUid.Some?
      ensures r.rows[i].firebaseUid != r.rows[j].firebaseUid
    {
      assert r.rows[i] in t.rows && r.rows[j] in t.rows;
      var i' :| 0 <= i' < |t.rows| && t.rows[i'] == r.rows[i];
      var j' :| 0 <= j' < |t.rows| && t.rows[j'] == r.rows[j];
      assert i' != j';
    }
  }

  /** `deleteUser` keeps the stores consistent unless the row deletion fails
      after the account is gone. */
  lemma DeleteUserKeepsConsistency(w: World, id: int, removed: Result<()>, deleted: Result<()>)
    requires Consistent(w)
    ensures var s := DeleteUser(w, id, removed, deleted);
            || Consistent(s.world)
            || (&& FindById(w.table, id).Some? && FindById(w.table, id).value.firebaseUid.Some?
                && removed.Ok? && deleted.Err?)
  {
    var s := DeleteUser(w, id, removed, deleted);
    match FindIndex(w.table.rows, ById(id))
    case None =>
    case Some(k) =>
      var gone := w.table.rows[k];
      if gone.firebaseUid.Some? && removed.Err? {
      } else if deleted.Err? {
        if gone.firebaseUid.None? {
          SameTableKeepsConsistency(w, s.world);
        }
      } else {
        RemoveRowKeepsConsistency(w, s.world, k);
      }
  }

  /** Row `k` removed by its id, and at most the account under its uid. */
  lemma RemoveRowKeepsConsistency(w: World, w': World, k: nat)
    requires Consistent(w)
    requires k < |w.table.rows|
    requires w'.table == DeleteById(w.table, w.table.rows[k].id.value)
    requires forall v :: v in w.accounts && Some(v) != w.table.rows[k].firebaseUid ==>
               v in w'.accounts && w'.accounts[v] == w.accounts[v]
    ensures Consistent(w')
  {
    var rows, t' := w.table.rows, w'.table;
    var gone := rows[k];
    WithoutKeepsDistinctIds(rows, gone.id.value);
    KeptRowsKeepUniqueUids(w.table, t');
    forall i | 0 <= i < |t'.rows|
      ensures Linked(t'.rows[i], w'.accounts)
    {
      var u := t'.rows[i];
      assert u in rows && u.id != gone.id;
      var j :| 0 <= j < |rows| && rows[j] == u;
      assert Linked(rows[j], w.accounts);
      if u.firebaseUid.Some? && gone.firebaseUid.Some? {
        if j < k {
          assert u.firebaseUid != gone.firebaseUid;
        } else {
          assert gone.firebaseUid != u.firebaseUid;
        }
      }
    }
  }

  /** A failed row deletion after the account deletion leaves a row whose
      uid names no account. */
  lemma DeleteRowFailureBreaksConsistency(w: World, id: int, removed: Result<()>, deleted: Result<()>)
    requires Consistent(w)
    requires FindById(w.table, id).Some? && FindById(w.table, id).value.firebaseUid.Some?
    requires removed.Ok? && deleted.Err?
    ensures !Consistent(DeleteUser(w, id, removed, deleted).world)
  {
    var s := DeleteUser(w, id, removed, deleted);
    var k := FindIndex(w.table.rows, ById(id)).value;
    assert !Linked(s.world.table.rows[k], s.world.accounts);
  }

  /* ---------------------------------------------------------------- */
  /* changeEmail, changePassword, updateMyProfile, password reset       */
  /* ---------------------------------------------------------------- */

  /** `changeEmail` keeps the stores consistent unless the save fails after
      the provider took the new email. */
  lemma ChangeEmailKeepsConsistency(w: World, uid: Uid, newEmail: string, updated: Result<()>, saved: Result<()>)
    requires Consistent(w)
    ensures var s := ChangeEmail(w, uid, newEmail, updated, saved);
            || Consistent(s.world)
            || (&& FindByFirebaseUid(w.table, uid).Some? && !EmailTaken(w.table, newEmail)
                && updated.Ok? && saved.Err?)
  {
    var s := ChangeEmail(w, uid, newEmail, updated, saved);
    match FindIndex(w.table.rows, ByUid(uid))
    case None =>
    case Some(k) =>
      if !EmailTaken(w.table, newEmail) && updated.Ok? && saved.Ok? {
        assert Linked(w.table.rows[k], w.accounts);
        EditKeepsConsistency(w, s.world, k);
      }
  }

  /** A failed save after the provider took the new email leaves the row with
      the old email: the two copies differ, since the new email was free. */
  lemma ChangeEmailSaveFailureBreaksConsistency(w: World, uid: Uid, newEmail: string,
                                                updated: Result<()>, saved: Result<()>)
    requires Consistent(w)
    requires FindByFirebaseUid(w.table, uid).Some? && !EmailTaken(w.table, newEmail)
    requires updated.Ok? && saved.Err?
    ensures !Consistent(ChangeEmail(w, uid, newEmail, updated, saved).world)
  {
    var s := ChangeEmail(w, uid, newEmail, updated, saved);
    var k := FindIndex(w.table.rows, ByUid(uid)).value;
    assert Linked(w.table.rows[k], w.accounts);
    assert w.table.rows[k].email != newEmail;
    assert !Linked(s.world.table.rows[k], s.world.accounts);
  }

  /** The password is not part of the agreement, so `changePassword` keeps
      the stores consistent whatever fails. */
  lemma ChangePasswordKeepsConsistency(w: World, uid: Uid, newPassword: string, encode: string -> string,
                                       updated: Result<()>, saved: Result<()>)
    requires Consistent(w)
    ensures Consistent(ChangePassword(w, uid, newPassword, encode, updated, saved).world)
  {
    var s := ChangePassword(w, uid, newPassword, encode, updated, saved);
    match FindIndex(w.table.rows, ByUid(uid))
    case None =>
    case Some(k) =>
      assert Linked(w.table.rows[k], w.accounts);
      if s.result.Ok? {
        EditKeepsConsistency(w, s.world, k);
      } else {
        SameTableKeepsConsistency(w, s.world);
      }
  }

  /** A user's own edit touches neither the uid, the email, the roles nor the
      accounts. */
  lemma UpdateMyProfileKeepsConsistency(w: World, uid: Uid, dto: UserDto, saved: Result<()>)
    requires Consistent(w)
    ensures Consistent(UpdateMyProfile(w, uid, dto, saved).world)
  {
    var s := UpdateMyProfile(w, uid, dto, saved);
    match FindIndex(w.table.rows, ByUid(uid))
    case None =>
    case Some(k) =>
      if s.result.Ok? {
        assert Linked(w.table.rows[k], w.accounts);
        EditKeepsConsistency(w, s.world, k);
      }
  }
}

=== FILE: identity.dfy ===
/** The identity provider's account store, as the service sees it through the
    admin SDK: accounts keyed by uid, each with its sign-in email, its
    password, its verification and disabled flags, and the custom `role`
    claim.

    Each operation here is the effect of a call that succeeded; whether a call
    succeeds is decided by the caller's outcome parameter. An update addressed
    to a uid with no account changes nothing. */
module IdentityProvider {
  import opened Outcomes
  import UsersRepository

  type Uid = UsersRepository.Uid

  datatype Account = Account(
    email: string,
    password: string,
    emailVerified: bool,
    disabled: bool,
    roleClaim: Option<string>)

  type Accounts = map<Uid, Account>

  /** `createUser` with a request that sets email and password, leaves the
      email unverified and the account enabled; the provider picks `uid`. */
  function CreateAccount(a: Accounts, uid: Uid, email: string, password: string): (r: Accounts)
    ensures r.Keys == a.Keys + {uid}
    ensures r[uid] == Account(email, password, false, false, None)
    ensures forall v :: v in a && v != uid ==> r[v] == a[v]
  {
    a[uid := Account(email, password, false, false, None)]
  }

  /** `setCustomUserClaims(uid, {"role": role})`: the claims become exactly
      that one role. */
  function SetRoleClaim(a: Accounts, uid: Uid, role: string): (r: Accounts)
    ensures r.Keys == a.Keys
    ensures uid in a ==> r[uid] == a[uid].(roleClaim := Some(role))
    ensures forall v :: v in a && v != uid ==> r[v] == a[v]
  {
    if uid in a then a[uid := a[uid].(roleClaim := Some(role))] else a
  }

  /** `updateUser` with a request that sets only the email. */
  function UpdateEmail(a: Accounts, uid: Uid, email: string): (r: Accounts)
    ensures r.Keys == a.Keys
    ensures uid in a ==> r[uid] == a[uid].(email := email)
    ensures forall v :: v in a && v != uid ==> r[v] == a[v]
  {
    if uid in a then a[uid := a[uid].(email := email)] else a
  }

  /** `updateUser` with a request that sets only the password. */
  function UpdatePassword(a: Accounts, uid: Uid, password: string): (r: Accounts)
    ensures r.Keys == a.Keys
    ensures uid in a ==> r[uid] == a[uid].(password := password)
    ensures forall v :: v in a && v != uid ==> r[v] == a[v]
  {
    if uid in a then a[uid := a[uid].(password := password)] else a
  }

  /** `deleteUser(uid)` */
  function DeleteAccount(a: Accounts, uid: Uid): (r: Accounts)
    ensures r.Keys == a.Keys - {uid}
    ensures forall v :: v in r ==> r[v] == a[v]
  {
    a - {uid}
  }

  /** `getUserByEmail` finds an account. */
  predicate HasAccountFor(a: Accounts, email: string) {
    exists uid :: uid in a && a[uid].email == email
  }
}

=== FILE: outcomes.dfy ===
/** Values that may be missing or may have failed.

    A nullable Java reference becomes an `Option`; an exception raised inside a
    reactive chain (a `Mono.error`) becomes an `Err` carrying the exception's
    message. */
module Outcomes {

  datatype Option<+T> = None | Some(value: T)

  datatype Result<+T> = Ok(value: T) | Err(message: string)
}

=== FILE: readback.dfy ===
/** What the read operations see after a workflow went through, and what
    repeating a workflow with the same input does. */
module ReadBack {
  import opened Outcomes
  import opened UsersRepository
  import opened Calls
  import opened UserService

  /** The first row matching `key` in a table that gained `row` at its end,
      when no earlier row matches: the new row. */
  lemma AppendedRowIsFirstMatch(rows: seq<User>, row: User, key: Key)
    requires Matches(row, key)
    requires forall i :: 0 <= i < |rows| ==> !Matches(rows[i], key)
    ensures FindIndex(rows + [row], key) == Some(|rows|)
  {
    var all := rows + [row];
    var r := FindIndex(all, key);
    assert Matches(all[|rows|], key);
  }

  /** After `createUser` succeeded, looking its email up gives back the view
      it returned. */
  lemma CreatedUserIsFoundByEmail(w: World, dto: UserCreateDto, encode: string -> string,
                                  created: Result<Uid>, claimed: Result<()>, saved: Result<()>)
    requires CreateUser(w, dto, encode, created, claimed, saved).result.Ok?
    ensures var s := CreateUser(w, dto, encode, created, claimed, saved);
            FindUserByEmail(s.world.table, dto.email) == Some(s.result.value)
  {
    var s := CreateUser(w, dto, encode, created, claimed, saved);
    var n := |w.table.rows|;
    assert s.world.table.rows == w.table.rows + [s.world.table.rows[n]];
    AppendedRowIsFirstMatch(w.table.rows, s.world.table.rows[n], ByEmail(dto.email));
  }

  /** After `createUser` succeeded under a uid no row had, the caller's own
      lookup by that uid finds the new row. */
  lemma CreatedUserIsFoundByUid(w: World, dto: UserCreateDto, encode: string -> string,
                                created: Result<Uid>, claimed: Result<()>, saved: Result<()>)
    requires CreateUser(w, dto, encode, created, claimed, saved).result.Ok?
    requires forall i :: 0 <= i < |w.table.rows| ==> w.table.rows[i].firebaseUid != Some(created.value)
    ensures var s := CreateUser(w, dto, encode, created, claimed, saved);
            && SelfLookup(s.world.table, created.value).Some?
            && ToDto(SelfLookup(s.world.table, created.value).value) == s.result.value
  {
    var s := CreateUser(w, dto, encode, created, claimed, saved);
    var n := |w.table.rows|;
    assert s.world.table.rows == w.table.rows + [s.world.table.rows[n]];
    AppendedRowIsFirstMatch(w.table.rows, s.world.table.rows[n], ByUid(created.value));
    SelfLookupIsFindByFirebaseUid(s.world.table, created.value);
  }

  /** After `changeEmail` succeeded, the new email finds the caller's view and
      the old one finds nothing. */
  lemma ChangedEmailIsFound(w: World, uid: Uid, newEmail: string, updated: Result<()>, saved: Result<()>)
    requires TableInv(w.table)
    requires ChangeEmail(w, uid, newEmail, updated, saved).result.Ok?
    ensures var s := ChangeEmail(w, uid, newEmail, updated, saved);
            && FindUserByEmail(s.world.table, newEmail) == Some(s.result.value)
            && FindUserByEmail(s.world.table, FindByFirebaseUid(w.table, uid).value.email).None?
  {
    var s := ChangeEmail(w, uid, newEmail, updated, saved);
    var rows, rows' := w.table.rows, s.world.table.rows;
    var k := FindIndex(rows, ByUid(uid)).value;
    var oldEmail := rows[k].email;
    assert !EmailTaken(w.table, newEmail);
    forall i | 0 <= i < |rows'| && i != k
      ensures rows'[i].email != newEmail && rows'[i].email != oldEmail
    {
      assert rows'[i] == rows[i];
      if i < k {
        assert rows[i].email != rows[k].email;
      } else {
        assert rows[k].email != rows[i].email;
      }
    }
    var r := FindIndex(rows', ByEmail(newEmail));
    assert Matches(rows'[k], ByEmail(newEmail));
    assert r == Some(k);
  }

  /** The same administrator edit a second time pushes no claim and, once
      saved, leaves the table as the first one left it. */
  lemma RepeatedUpdateIsQuiet(w: World, id: int, dto: UserDto, claimed: Result<()>,
                              saved2: Result<()>, claimed2: Result<()>)
    requires Wf(w.table)
    requires UpdateUser(w, id, dto, Ok(()), claimed).result.Ok?
    ensures var s1 := UpdateUser(w, id, dto, Ok(()), claimed);
            var s2 := UpdateUser(s1.world, id, dto, saved2, claimed2);
            && PushesNoClaim(s2.trace)
            && s2.world.accounts == s1.world.accounts
            && (saved2.Ok? ==> s2.world == s1.world && s2.result == s1.result)
  {
    var s1 := UpdateUser(w, id, dto, Ok(()), claimed);
    var k := FindIndex(w.table.rows, ById(id)).value;
    var t1 := s1.world.table;
    SameIdsSameIndex(w.table, t1, k, ById(id));
    assert t1.rows[k] == AdminEdit(w.table.rows[k], dto);
    assert !PushesClaimOnUpdate(t1.rows[k], dto);
    UpdateUserCalls(s1.world, id, dto, saved2, claimed2);
    assert AdminEdit(t1.rows[k], dto) == t1.rows[k];
    if saved2.Ok? {
      OverwriteWithSameRow(t1, k);
    }
  }

  /** The same edit of one's own profile a second time changes nothing more. */
  lemma RepeatedProfileEditIsIdempotent(w: World, uid: Uid, dto: UserDto, saved2: Result<()>)
    requires Wf(w.table)
    requires UpdateMyProfile(w, uid, dto, Ok(())).result.Ok?
    ensures var s1 := UpdateMyProfile(w, uid, dto, Ok(()));
            var s2 := UpdateMyProfile(s1.world, uid, dto, saved2);
            && s2.world == s1.world
            && (saved2.Ok? ==> s2.result == s1.result)
  {
    var s1 := UpdateMyProfile(w, uid, dto, Ok(()));
    var k := FindIndex(w.table.rows, ByUid(uid)).value;
    var t1 := s1.world.table;
    SameIdsSameIndex(w.table, t1, k, ByUid(uid));
    assert SelfEdit(t1.rows[k], dto) == t1.rows[k];
    if saved2.Ok? {
      OverwriteWithSameRow(t1, k);
    }
  }

  /** Changing one row without touching its id or uid keeps it the first row
      a lookup by either finds. */
  lemma SameIdsSameIndex(t: Table, t': Table, k: nat, key: Key)
    requires key.ById? || key.ByUid?
    requires k < |t.rows| && FindIndex(t.rows, key) == Some(k)
    requires OnlyRowChanged(t, t', k)
    requires t'.rows[k].id == t.rows[k].id && t'.rows[k].firebaseUid == t.rows[k].firebaseUid
    ensures FindIndex(t'.rows, key) == Some(k)
  {
    var r := FindIndex(t'.rows, key);
    assert Matches(t'.rows[k], key);
  }

  /** Saving a stored row unchanged leaves the table as it is. */
  lemma OverwriteWithSameRow(t: Table, k: nat)
    requires Wf(t) && k < |t.rows|
    ensures Save(t, t.rows[k]).table == t
  {
    var r := Save(t, t.rows[k]).table;
    forall i | 0 <= i < |t.rows|
      ensures r.rows[i] == t.rows[i]
    {
    }
    assert r.rows == t.rows;
  }
}

=== FILE: repository.dfy ===
/** The `users` table behind `UsersRepository`, a reactive CRUD repository
    keyed by an integer id with derived lookups by email and by identity uid.

    The table is the sequence of its rows in the order `findAll` yields them,
    together with the next value of the id sequence the database assigns on
    insertion. */
module UsersRepository {
  import opened Outcomes

  /** The identifier the identity provider assigns to an account. */
  type Uid = string

  /** A row of the table (the `User` entity). The Java fields that may hold
      null and that the code tests or copies as such are `Option`s; `id` is
      `None` for an entity not yet inserted. */
  datatype User = User(
    id: Option<int>,
    firebaseUid: Option<Uid>,
    name: Option<string>,
    lastName: Option<string>,
    documentType: Option<string>,
    documentNumber: Option<string>,
    cellPhone: Option<string>,
    email: string,
    password: string,
    role: seq<string>,
    profileImage: Option<string>)

  datatype Table = Table(rows: seq<User>, nextId: int)

  /** What a lookup matches rows on. */
  datatype Key = ById(id: int) | ByEmail(email: string) | ByUid(uid: Uid)

  predicate Matches(u: User, key: Key) {
    match key
    case ById(id) => u.id == Some(id)
    case ByEmail(e) => u.email == e
    case ByUid(uid) => u.firebaseUid == Some(uid)
  }

  /** Every row has been inserted under an id the sequence has already handed
      out, and no two rows share an id (the primary key). */
  predicate Wf(t: Table) {
    && (forall i :: 0 <= i < |t.rows| ==> t.rows[i].id.Some? && t.rows[i].id.value < t.nextId)
    && DistinctIds(t.rows)
  }

  predicate DistinctIds(rows: seq<User>) {
    forall i, j :: 0 <= i < j < |rows| ==> rows[i].id != rows[j].id
  }

  /** At most one row per email. */
  predicate UniqueEmails(t: Table) {
    forall i, j :: 0 <= i < j < |t.rows| ==> t.rows[i].email != t.rows[j].email
  }

  /** The position of the first row at or after `from` matching `key`. */
  function FindIndexFrom(rows: seq<User>, key: Key, from: nat): (r: Option<nat>)
    decreases |rows| - from
    ensures r.Some? ==> from <= r.value < |rows| && Matches(rows[r.value], key)
    ensures r.Some? ==> forall j :: from <= j < r.value ==> !Matches(rows[j], key)
    ensures r.None? ==> forall j :: from <= j < |rows| ==> !Matches(rows[j], key)
  {
    if from >= |rows| then None
    else if Matches(rows[from], key) then Some(from)
    else FindIndexFrom(rows, key, from + 1)
  }

  function FindIndex(rows: seq<User>, key: Key): (r: Option<nat>)
    ensures r.Some? ==> r.value < |rows| && Matches(rows[r.value], key)
    ensures r.Some? ==> forall j :: 0 <= j < r.value ==> !Matches(rows[j], key)
    ensures r.None? ==> forall j :: 0 <= j < |rows| ==> !Matches(rows[j], key)
  {
    FindIndexFrom(rows, key, 0)
  }

  /** The row a derived lookup returns: the first one matching. */
  function Find(t: Table, key: Key): (r: Option<User>)
    ensures r.Some? <==> exists i :: 0 <= i < |t.rows| && Matches(t.rows[i], key)
    ensures r.Some? ==> Matches(r.value, key) && r.value in t.rows
  {
    match FindIndex(t.rows, key)
    case None => None
    case Some(k) => Some(t.rows[k])
  }

  /** Under the primary key, the row found by id is the only one with it. */
  lemma FoundByIdIsUnique(t: Table, id: int, k: nat)
    requires Wf(t)
    requires FindIndex(t.rows, ById(id)) == Some(k)
    ensures forall i :: 0 <= i < |t.rows| && i != k ==> t.rows[i].id != Some(id)
  {
  }

  function FindById(t: Table, id: int): Option<User> {
    Find(t, ById(id))
  }

  function FindByEmail(t: Table, email: string): Option<User> {
    Find(t, ByEmail(email))
  }

  function FindByFirebaseUid(t: Table, uid: Uid): Option<User> {
    Find(t, ByUid(uid))
  }

  function FindAll(t: Table): seq<User> {
    t.rows
  }

  /** Some row has this email. */
  predicate EmailTaken(t: Table, email: string) {
    exists i :: 0 <= i < |t.rows| && t.rows[i].email == email
  }

  /** The entity `save` hands back, and the table after it. */
  datatype Saved = Saved(row: User, table: Table)

  /** `save`: an entity without an id is inserted under the next id of the
      sequence; one with an id overwrites the stored row carrying that id. */
  function Save(t: Table, u: User): (s: Saved)
    ensures u.id.None? ==> s.row == u.(id := Some(t.nextId)) && s.table.rows == t.rows + [s.row]
    ensures u.id.Some? ==> s.row == u && |s.table.rows| == |t.rows|
    ensures u.id.Some? ==> forall i :: 0 <= i < |t.rows| ==>
              s.table.rows[i] == (if t.rows[i].id == u.id then u else t.rows[i])
    ensures s.row.id.Some?
    ensures Wf(t) && (u.id.None? || Find(t, ById(u.id.value)).Some?) ==> Wf(s.table)
  {
    match u.id
    case None =>
      var row := u.(id := Some(t.nextId));
      Saved(row, Table(t.rows + [row], t.nextId + 1))
    case Some(_) =>
      var rows := seq(|t.rows|, i requires 0 <= i < |t.rows| => if t.rows[i].id == u.id then u else t.rows[i]);
      assert forall i :: 0 <= i < |rows| ==> rows[i].id == t.rows[i].id;
      Saved(u, Table(rows, t.nextId))
  }

  /** Reading back a saved entity by its id gives what `save` returned, both
      for an insertion and for an overwrite of a stored row. */
  lemma SaveThenFind(t: Table, u: User)
    requires Wf(t)
    requires u.id.None? || Find(t, ById(u.id.value)).Some?
    ensures var s := Save(t, u); Find(s.table, ById(s.row.id.value)) == Some(s.row)
  {
    var s := Save(t, u);
    if u.id.None? {
      var k := |t.rows|;
      assert s.table.rows[k] == s.row;
      forall j | 0 <= j < k
        ensures !Matches(s.table.rows[j], ById(s.row.id.value))
      {
        assert s.table.rows[j] == t.rows[j];
      }
      assert FindIndex(s.table.rows, ById(s.row.id.value)) == Some(k);
    } else {
      var k := FindIndex(t.rows, ById(u.id.value)).value;
      assert s.table.rows[k] == u;
      assert FindIndex(s.table.rows, ById(u.id.value)) == Some(k);
    }
  }

  /** Inserting a new entity whose email no row has keeps both invariants. */
  lemma InsertKeepsInvariants(t: Table, u: User)
    requires Wf(t) && UniqueEmails(t)
    requires u.id.None? && !EmailTaken(t, u.email)
    ensures var s := Save(t, u); Wf(s.table) && UniqueEmails(s.table)
  {
    var s := Save(t, u);
    forall i, j | 0 <= i < j < |s.table.rows|
      ensures s.table.rows[i].email != s.table.rows[j].email
    {
      if j == |t.rows| {
        assert s.table.rows[i] == t.rows[i];
      }
    }
  }

  /** The rows whose id is not `id`, in their order. */
  function Without(rows: seq<User>, id: int): (r: seq<User>)
    ensures forall u :: u in r <==> u in rows && u.id != Some(id)
    ensures |r| <= |rows|
  {
    if |rows| == 0 then []
    else
      assert forall u :: u in rows <==> u == rows[0] || u in rows[1..];
      (if rows[0].id == Some(id) then [] else [rows[0]]) + Without(rows[1..], id)
  }

  /** Dropping rows keeps the remaining ids distinct. */
  lemma {:induction false} WithoutKeepsDistinctIds(rows: seq<User>, id: int)
    requires DistinctIds(rows)
    ensures DistinctIds(Without(rows, id))
    decreases |rows|
  {
    if |rows| > 0 {
      TailKeepsDistinctIds(rows);
      WithoutKeepsDistinctIds(rows[1..], id);
      if rows[0].id != Some(id) {
        HeadIdIsFresh(rows);
        ConsKeepsDistinctIds(rows[0], Without(rows[1..], id));
      }
    }
  }

  lemma TailKeepsDistinctIds(rows: seq<User>)
    requires |rows| > 0 && DistinctIds(rows)
    ensures DistinctIds(rows[1..])
  {
    forall i, j | 0 <= i < j < |rows[1..]|
      ensures rows[1..][i].id != rows[1..][j].id
    {
      assert rows[1..][i] == rows[i + 1] && rows[1..][j] == rows[j + 1];
    }
  }

  lemma ConsKeepsDistinctIds(x: User, rest: seq<User>)
    requires DistinctIds(rest)
    requires forall u :: u in rest ==> u.id != x.id
    ensures DistinctIds([x] + rest)
  {
    var r := [x] + rest;
    forall i, j | 0 <= i < j < |r|
      ensures r[i].id != r[j].id
    {
      assert r[j] == rest[j - 1];
      if i > 0 {
        assert r[i] == rest[i - 1];
      }
    }
  }

  /** Under distinct ids, no later row shares the first row's id. */
  lemma HeadIdIsFresh(rows: seq<User>)
    requires |rows| > 0 && DistinctIds(rows)
    ensures forall u :: u in rows[1..] ==> u.id != rows[0].id
  {
    forall u | u in rows[1..]
      ensures u.id != rows[0].id
    {
      var j :| 0 <= j < |rows[1..]| && rows[1..][j] == u;
      assert rows[j + 1] == u;
    }
  }

  /** `deleteById`: the rows with that id go, every other row stays. */
  function DeleteById(t: Table, id: int): (r: Table)
    ensures forall u :: u in r.rows <==> u in t.rows && u.id != Some(id)
    ensures Find(r, ById(id)).None?
    ensures r.nextId == t.nextId
    ensures Wf(t) ==> Wf(r)
    ensures Wf(t) && UniqueEmails(t) ==> UniqueEmails(r)
  {
    var r := Table(Without(t.rows, id), t.nextId);
    assert Wf(t) ==> Wf(r) && (UniqueEmails(t) ==> UniqueEmails(r)) by {
      if Wf(t) {
        WithoutKeepsDistinctIds(t.rows, id);
        if UniqueEmails(t) {
          KeptRowsKeepUniqueEmails(t, r);
        }
      }
    }
    r
  }

  /** Rows kept from a table with distinct ids and unique emails have unique
      emails: two kept rows are two different stored rows. */
  lemma KeptRowsKeepUniqueEmails(t: Table, r: Table)
    requires Wf(t) && UniqueEmails(t)
    requires DistinctIds(r.rows)
    requires forall u :: u in r.rows ==> u in t.rows
    ensures UniqueEmails(r)
  {
    forall i, j | 0 <= i < j < |r.rows|
      ensures r.rows[i].email != r.rows[j].email
    {
      assert r.rows[i] in t.rows && r.rows[j] in t.rows;
      var i' :| 0 <= i' < |t.rows| && t.rows[i'] == r.rows[i];
      var j' :| 0 <= j' < |t.rows| && t.rows[j'] == r.rows[j];
      assert i' != j';
    }
  }
}

=== FILE: storage.dfy ===
/** The string logic of `SupabaseStorageService`: uploading a profile image
    given as a data URI, and deleting an image given its public URL.

    The HTTP exchanges with the storage API become the `Request`s issued, each
    recorded by its verb and the two variables of the `/object/{bucket}/{path}`
    URI template; the answer of the storage API is an outcome parameter. The
    random UUID naming the object is a parameter, and so is whether the
    content decodes as Base64 (a decoding failure throws inside the `try` and
    ends in an empty result). */
module SupabaseStorage {
  import opened Outcomes
  import opened Text

  /** What a well-formed payload must contain. */
  const DataMarker := "base64,"
  /** What separates the project part of a public URL from the object part. */
  const PublicMarker := "/object/public/"
  /** What a public URL puts between the project URL and the bucket. */
  const PublicPath := "/storage/v1/object/public/"

  const SupportedExtensions: set<string> := {".png", ".jpg", ".gif", ".webp"}

  /** The MIME types looked for in the header, in the order they are tried,
      each with the extension it selects. */
  const MimeTable: seq<(string, string)> :=
    [("image/png", ".png"), ("image/jpeg", ".jpg"), ("image/jpg", ".jpg"),
     ("image/gif", ".gif"), ("image/webp", ".webp")]

  /** The injected settings of the service. */
  datatype Config = Config(projectUrl: string, bucket: string)

  datatype Request = Put(bucket: string, path: string) | Delete(bucket: string, path: string)

  /** How the returned `Mono` ends: empty, with a value, or with an error. */
  datatype Reply = Empty | Value(value: string) | Error(message: string)

  datatype Exchange = Exchange(reply: Reply, requests: seq<Request>)

  /** The guard of `uploadBase64Image`. */
  predicate IsDataUri(data: string) {
    HasText(data) && Contains(data, DataMarker)
  }

  /** A payload that passes the guard has a comma, so cutting it at the first
      comma always gives two parts. */
  lemma DataUriHasComma(data: string)
    requires Contains(data, DataMarker)
    ensures |SplitOnce(data, ",")| == 2
  {
    var i :| 0 <= i <= |data| - |DataMarker| && IsAt(data, DataMarker, i);
    assert data[i + 6] == DataMarker[6];
    assert data[i + 6..i + 7] == ",";
    assert IsAt(data, ",", i + 6);
  }

  /** The header of a data URI: everything before the first comma. */
  function Header(data: string): string {
    SplitOnce(data, ",")[0]
  }

  /** The content of a data URI: everything after the first comma. */
  function Content(data: string): (c: string)
    requires Contains(data, DataMarker)
    ensures Header(data) + "," + c == data
    ensures !Contains(Header(data), ",")
  {
    DataUriHasComma(data);
    SplitOnce(data, ",")[1]
  }

  /** The extension chosen for a header: the first supported MIME type the
      header mentions decides, and none yields the empty string. */
  function ExtensionFor(metadata: string): (ext: string)
    ensures ext == "" || ext in SupportedExtensions
    ensures ext == "" <==>
              && !Contains(metadata, "image/png") && !Contains(metadata, "image/jpeg")
              && !Contains(metadata, "image/jpg") && !Contains(metadata, "image/gif")
              && !Contains(metadata, "image/webp")
  {
    if Contains(metadata, "image/png") then ".png"
    else if Contains(metadata, "image/jpeg") then ".jpg"
    else if Contains(metadata, "image/jpg") then ".jpg"
    else if Contains(metadata, "image/gif") then ".gif"
    else if Contains(metadata, "image/webp") then ".webp"
    else ""
  }

  /** Reference reading of the extension choice: walk a MIME table in order
      and take the extension of the first type the header contains. */
  function FirstListed(table: seq<(string, string)>, metadata: string): string {
    if |table| == 0 then ""
    else if Contains(metadata, table[0].0) then table[0].1
    else FirstListed(table[1..], metadata)
  }

  /** The chain of conditionals picks what the ordered table picks. */
  lemma ExtensionFollowsMimeTable(metadata: string)
    ensures ExtensionFor(metadata) == FirstListed(MimeTable, metadata)
  {
    var t0 := MimeTable;
    var t1 := t0[1..];
    var t2 := t1[1..];
    var t3 := t2[1..];
    var t4 := t3[1..];
    assert t4[1..] == [];
    assert FirstListed(t4, metadata) == (if Contains(metadata, "image/webp") then ".webp" else "");
    assert FirstListed(t3, metadata) == (if Contains(metadata, "image/gif") then ".gif" else FirstListed(t4, metadata));
    assert FirstListed(t2, metadata) == (if Contains(metadata, "image/jpg") then ".jpg" else FirstListed(t3, metadata));
    assert FirstListed(t1, metadata) == (if Contains(metadata, "image/jpeg") then ".jpg" else FirstListed(t2, metadata));
    assert FirstListed(t0, metadata) == (if Contains(metadata, "image/png") then ".png" else FirstListed(t1, metadata));
  }

  /** The object path: the folder, a slash, the UUID and the extension. */
  function ObjectPath(folder: string, uuid: string, ext: string): (p: string)
    ensures folder + "/" + uuid <= p
    ensures |ext| <= |p| && p[|p| - |ext|..] == ext
    ensures |p| == |folder| + 1 + |uuid| + |ext|
  {
    var p := folder + "/" + uuid + ext;
    assert p == (folder + "/" + uuid) + ext;
    p
  }

  /** The address the upload returns for an object path. */
  function PublicUrl(cfg: Config, path: string): (u: string)
    ensures cfg.projectUrl <= u
    ensures u[|cfg.projectUrl|..] == PublicPath + cfg.bucket + "/" + path
    ensures |path| <= |u| && u[|u| - |path|..] == path
    ensures |u| == |cfg.projectUrl| + |PublicPath| + |cfg.bucket| + 1 + |path|
  {
    var u := cfg.projectUrl + PublicPath + cfg.bucket + "/" + path;
    assert u == cfg.projectUrl + (PublicPath + cfg.bucket + "/" + path);
    assert u == (cfg.projectUrl + PublicPath + cfg.bucket + "/") + path;
    u
  }

  /** `uploadBase64Image(folder, data)`. */
  function UploadBase64Image(cfg: Config, folder: string, data: string, uuid: string,
                             decodes: string -> bool, put: Result<()>): (x: Exchange)
    ensures !IsDataUri(data) ==> x == Exchange(Empty, [])
    ensures x.requests == [] <==>
              !IsDataUri(data) || ExtensionFor(Header(data)) == "" || !decodes(Content(data))
    ensures x.requests == [] ==> x.reply == Empty
    ensures x.requests != [] ==>
              && |x.requests| == 1
              && x.requests[0].Put?
              && x.requests[0].bucket == cfg.bucket
              // named by the folder, the UUID and the header's extension
              && folder + "/" + uuid <= x.requests[0].path
              && var ext := ExtensionFor(Header(data));
                 && ext in SupportedExtensions
                 && |x.requests[0].path| == |folder| + 1 + |uuid| + |ext|
                 && x.requests[0].path[|x.requests[0].path| - |ext|..] == ext
    ensures x.reply.Error? <==> x.requests != [] && put.Err?
    ensures x.reply.Value? <==> x.requests != [] && put.Ok?
    ensures x.reply.Value? ==> x.reply.value == PublicUrl(cfg, x.requests[0].path)
  {
    if !IsDataUri(data) then Exchange(Empty, [])
    else
      var metadata := Header(data);
      var content := Content(data);
      var ext := ExtensionFor(metadata);
      if ext == "" then Exchange(Empty, [])
      else if !decodes(content) then Exchange(Empty, [])
      else
        var path := ObjectPath(folder, uuid, ext);
        match put
        case Err(m) => Exchange(Error(m), [Put(cfg.bucket, path)])
        case Ok(_) => Exchange(Value(PublicUrl(cfg, path)), [Put(cfg.bucket, path)])
  }

  /** `deleteImage(publicUrl)`: the object path is the second piece of the URL
      split at the public marker. */
  function DeleteImage(cfg: Config, url: string, del: Result<()>): (x: Exchange)
    ensures !HasText(url) ==> x == Exchange(Empty, [])
    ensures x.requests != [] <==>
              && HasText(url)
              && Contains(url, PublicMarker)
              && !IsRepetition(AfterFirst(url, PublicMarker), PublicMarker)
    ensures x.requests != [] ==>
              x.requests == [Delete(cfg.bucket, BeforeFirst(AfterFirst(url, PublicMarker), PublicMarker))]
    ensures x.reply.Error? <==> x.requests != [] && del.Err?
    ensures x.reply.Value? == false
  {
    if !HasText(url) then Exchange(Empty, [])
    else
      var parts := Split(url, PublicMarker);
      SplitSecondPiece(url, PublicMarker);
      if |parts| < 2 then Exchange(Empty, [])
      else
        var req := Delete(cfg.bucket, parts[1]);
        match del
        case Err(m) => Exchange(Error(m), [req])
        case Ok(_) => Exchange(Empty, [req])
  }

  /** In a public URL the first public marker is the one the URL template
      writes, as long as the project URL (with the slash after it) does not
      already hold one. */
  lemma FirstMarkerOfPublicUrl(p: string, rest: string)
    requires !Contains(p + "/", PublicMarker)
    ensures IndexOf(p + PublicPath + rest, PublicMarker) == Some(|p| + 11)
  {
    var url := p + PublicPath + rest;
    var q := |p| + 11;
    assert url[q..q + 15] == PublicMarker;
    forall j | 0 <= j < q
      ensures !IsAt(url, PublicMarker, j)
    {
      NoEarlyMarker(p, rest, j);
    }
    IndexOfIsFirstOccurrence(url, PublicMarker, q);
  }

  /** No public marker starts before the one the URL template writes: one
      ending inside `p + "/"` is excluded by the hypothesis, and one overlapping
      the public path would need a character of it that the path does not
      have there. */
  lemma NoEarlyMarker(p: string, rest: string, j: int)
    requires !Contains(p + "/", PublicMarker)
    requires 0 <= j < |p| + 11
    ensures !IsAt(p + PublicPath + rest, PublicMarker, j)
  {
    var url := p + PublicPath + rest;
    if j + 15 <= |p| + 1 {
      assert url[..|p| + 1] == p + "/";
      assert url[j..j + 15] == url[..|p| + 1][j..j + 15];
      assert !IsAt(p + "/", PublicMarker, j);
    } else if j < |p| {
      // the marker would have to hold the 's' of "/storage"
      var d := |p| - j;
      assert url[j + d + 1] == 's';
      assert PublicMarker[d + 1] != 's';
      assert url[j..j + 15][d + 1] != PublicMarker[d + 1];
    } else {
      // the marker would have to start "/o" inside "/storage/v1"
      var k := j - |p|;
      assert url[j] == PublicPath[k] && url[j + 1] == PublicPath[k + 1];
      assert PublicPath[k] != '/' || PublicPath[k + 1] != 'o';
      assert url[j..j + 15][0] != PublicMarker[0] || url[j..j + 15][1] != PublicMarker[1];
    }
  }

  /** Round trip: deleting the image behind a public URL built by the upload
      extracts `bucket + "/" + path` as the object path, so the delete request
      names the bucket twice. */
  lemma DeleteOfPublicUrlNamesBucketTwice(cfg: Config, path: string, del: Result<()>)
    requires !Contains(cfg.projectUrl + "/", PublicMarker)
    requires !Contains(cfg.bucket + "/" + path, PublicMarker)
    ensures DeleteImage(cfg, PublicUrl(cfg, path), del).requests
              == [Delete(cfg.bucket, cfg.bucket + "/" + path)]
  {
    var rest := cfg.bucket + "/" + path;
    var url := PublicUrl(cfg, path);
    assert url == cfg.projectUrl + PublicPath + rest;
    FirstMarkerOfPublicUrl(cfg.projectUrl, rest);
    assert AfterFirst(url, PublicMarker) == rest;
    assert BeforeFirst(rest, PublicMarker) == rest;
    assert !IsAt(rest, PublicMarker, 0);
    assert url[|cfg.projectUrl|] == '/';
    assert !IsWhitespace(url[|cfg.projectUrl|]);
  }

  /** The same round trip starting from an upload that returned a URL. */
  lemma UploadThenDeleteNamesBucketTwice(cfg: Config, folder: string, data: string, uuid: string,
                                         decodes: string -> bool, put: Result<()>, del: Result<()>)
    requires !Contains(cfg.projectUrl + "/", PublicMarker)
    requires UploadBase64Image(cfg, folder, data, uuid, decodes, put).reply.Value?
    requires !Contains(cfg.bucket + "/" + UploadBase64Image(cfg, folder, data, uuid, decodes, put).requests[0].path, PublicMarker)
    ensures var up := UploadBase64Image(cfg, folder, data, uuid, decodes, put);
            DeleteImage(cfg, up.reply.value, del).requests
              == [Delete(cfg.bucket, cfg.bucket + "/" + up.requests[0].path)]
  {
    var up := UploadBase64Image(cfg, folder, data, uuid, decodes, put);
    DeleteOfPublicUrlNamesBucketTwice(cfg, up.requests[0].path, del);
  }

  /** `deleteImage` as its round trip calls for: the object path is what
      follows the public marker and the bucket with its slash. A URL whose
      object part does not start with the bucket names no object of it and
      issues no request. */
  function DeleteImageIntended(cfg: Config, url: string, del: Result<()>): (x: Exchange)
    ensures x.requests != [] ==>
              && HasText(url) && Contains(url, PublicMarker)
              && |x.requests| == 1 && x.requests[0].Delete? && x.requests[0].bucket == cfg.bucket
              && cfg.bucket + "/" + x.requests[0].path == BeforeFirst(AfterFirst(url, PublicMarker), PublicMarker)
    ensures x.reply.Error? <==> x.requests != [] && del.Err?
    ensures x.reply.Value? == false
  {
    var asWritten := DeleteImage(cfg, url, del);
    var prefix := cfg.bucket + "/";
    if asWritten.requests == [] then asWritten
    else if prefix <= asWritten.requests[0].path then
      var path := asWritten.requests[0].path[|prefix|..];
      assert prefix + path == asWritten.requests[0].path;
      Exchange(asWritten.reply, [Delete(cfg.bucket, path)])
    else Exchange(Empty, [])
  }

  /** Round trip of the corrected deletion: the public URL of an object leads
      back to that object. */
  lemma DeleteOfPublicUrlRemovesObject(cfg: Config, path: string, del: Result<()>)
    requires !Contains(cfg.projectUrl + "/", PublicMarker)
    requires !Contains(cfg.bucket + "/" + path, PublicMarker)
    ensures DeleteImageIntended(cfg, PublicUrl(cfg, path), del).requests == [Delete(cfg.bucket, path)]
  {
    DeleteOfPublicUrlNamesBucketTwice(cfg, path, del);
    var prefix := cfg.bucket + "/";
    assert prefix <= prefix + path;
    assert (prefix + path)[|prefix|..] == path;
  }

  /** Uploading and then deleting through the corrected deletion removes the
      object the upload stored. */
  lemma UploadThenDeleteRemovesObject(cfg: Config, folder: string, data: string, uuid: string,
                                      decodes: string -> bool, put: Result<()>, del: Result<()>)
    requires !Contains(cfg.projectUrl + "/", PublicMarker)
    requires UploadBase64Image(cfg, folder, data, uuid, decodes, put).reply.Value?
    requires !Contains(cfg.bucket + "/" + UploadBase64Image(cfg, folder, data, uuid, decodes, put).requests[0].path, PublicMarker)
    ensures var up := UploadBase64Image(cfg, folder, data, uuid, decodes, put);
            DeleteImageIntended(cfg, up.reply.value, del).requests == [Delete(up.requests[0].bucket, up.requests[0].path)]
  {
    var up := UploadBase64Image(cfg, folder, data, uuid, decodes, put);
    DeleteOfPublicUrlRemovesObject(cfg, up.requests[0].path, del);
  }
}

=== FILE: text.dfy ===
/** The string operations of the Java standard library and Spring that the
    services rely on, over `seq<char>`: substring search (`contains`,
    `indexOf`), the two forms of `split` the code calls, `StringUtils.hasText`
    and `toUpperCase`. */
module Text {
  import opened Outcomes

  /** `pat` occurs in `s` starting at index `i`. */
  predicate IsAt(s: string, pat: string, i: int) {
    0 <= i && i + |pat| <= |s| && s[i..i + |pat|] == pat
  }

  /** `s.contains(pat)` */
  predicate Contains(s: string, pat: string) {
    exists i | 0 <= i <= |s| - |pat| :: IsAt(s, pat, i)
  }

  /** The first occurrence of `pat` in `s` at or after `from`. */
  function IndexFrom(s: string, pat: string, from: nat): (r: Option<nat>)
    decreases |s| - from
    ensures r.Some? ==> from <= r.value && IsAt(s, pat, r.value)
    ensures r.Some? ==> forall j :: from <= j < r.value ==> !IsAt(s, pat, j)
    ensures r.None? ==> forall j :: from <= j ==> !IsAt(s, pat, j)
  {
    if from + |pat| > |s| then None
    else if s[from..from + |pat|] == pat then Some(from)
    else IndexFrom(s, pat, from + 1)
  }

  /** `s.indexOf(pat)`, with `None` for -1. */
  function IndexOf(s: string, pat: string): (r: Option<nat>)
    ensures r.Some? <==> Contains(s, pat)
    ensures r.Some? ==> IsAt(s, pat, r.value)
    ensures r.Some? ==> forall j :: 0 <= j < r.value ==> !IsAt(s, pat, j)
  {
    IndexFrom(s, pat, 0)
  }

  /** An occurrence at `i` that no earlier occurrence precedes is the one
      `indexOf` reports. */
  lemma IndexOfIsFirstOccurrence(s: string, pat: string, i: nat)
    requires IsAt(s, pat, i)
    requires forall j :: 0 <= j < i ==> !IsAt(s, pat, j)
    ensures IndexOf(s, pat) == Some(i)
  {
  }

  /** An occurrence inside `s[..n]` is an occurrence inside `s`. */
  lemma OccurrenceInPrefix(s: string, pat: string, n: nat, j: int)
    requires n <= |s|
    requires IsAt(s[..n], pat, j)
    ensures IsAt(s, pat, j)
  {
    assert s[..n][j..j + |pat|] == s[j..j + |pat|];
  }

  /** What follows the first occurrence of `sep` (empty when there is none). */
  function AfterFirst(s: string, sep: string): string {
    match IndexOf(s, sep)
    case None => ""
    case Some(i) => s[i + |sep|..]
  }

  /** What precedes the first occurrence of `sep` (all of `s` when there is
      none). */
  function BeforeFirst(s: string, sep: string): string {
    match IndexOf(s, sep)
    case None => s
    case Some(i) => s[..i]
  }

  /** The pieces, joined back with `sep` between consecutive ones. */
  function Join(parts: seq<string>, sep: string): string
    requires |parts| >= 1
  {
    if |parts| == 1 then parts[0] else parts[0] + sep + Join(parts[1..], sep)
  }

  /** Every piece of `s` between occurrences of `sep`, found left to right
      without overlap: the regular-expression split before Java drops the
      trailing empty strings. */
  function Segments(s: string, sep: string): (r: seq<string>)
    requires |sep| > 0
    decreases |s|
    ensures |r| >= 1
    ensures Join(r, sep) == s
    ensures forall k :: 0 <= k < |r| ==> !Contains(r[k], sep)
  {
    match IndexOf(s, sep)
    case None => [s]
    case Some(i) =>
      var rest := Segments(s[i + |sep|..], sep);
      PieceBeforeFirstIsFree(s, sep, i);
      assert ([s[..i]] + rest)[1..] == rest;
      assert s[..i] + sep + s[i + |sep|..] == s by {
        assert s == s[..i] + s[i..i + |sep|] + s[i + |sep|..];
      }
      [s[..i]] + rest
  }

  /** The text before the first occurrence of `sep` contains no `sep`. */
  lemma PieceBeforeFirstIsFree(s: string, sep: string, i: nat)
    requires |sep| > 0
    requires IndexOf(s, sep) == Some(i)
    ensures !Contains(s[..i], sep)
  {
    forall j | IsAt(s[..i], sep, j)
      ensures false
    {
      OccurrenceInPrefix(s, sep, i, j);
    }
  }

  /** Drops the empty strings at the end of `parts`, as `String.split` with a
      zero limit does. */
  function DropTrailingEmpty(parts: seq<string>): (r: seq<string>)
    decreases |parts|
    ensures r <= parts
    ensures |r| == 0 || r[|r| - 1] != ""
    ensures forall k :: |r| <= k < |parts| ==> parts[k] == ""
  {
    if |parts| > 0 && parts[|parts| - 1] == "" then DropTrailingEmpty(parts[..|parts| - 1])
    else parts
  }

  /** `s.split(sep)` for a separator without regular-expression
      metacharacters: the whole of `s` when `sep` does not occur, otherwise the
      segments with trailing empty ones removed. */
  function Split(s: string, sep: string): (r: seq<string>)
    requires |sep| > 0
    ensures !Contains(s, sep) ==> r == [s]
    ensures forall k :: 0 <= k < |r| ==> !Contains(r[k], sep)
    // with a separator present: the segments up to the last non-empty one
    ensures Contains(s, sep) ==>
              && r <= Segments(s, sep)
              && (|r| == 0 || r[|r| - 1] != "")
              && forall k :: |r| <= k < |Segments(s, sep)| ==> Segments(s, sep)[k] == ""
  {
    if IndexOf(s, sep).None? then [s] else DropTrailingEmpty(Segments(s, sep))
  }

  /** `s.split(sep, 2)`: at most two parts, cut at the first occurrence. */
  function SplitOnce(s: string, sep: string): (r: seq<string>)
    requires |sep| > 0
    ensures |r| == 1 || |r| == 2
    ensures |r| == 2 <==> Contains(s, sep)
    ensures |r| == 1 ==> r[0] == s
    ensures |r| == 2 ==> r[0] + sep + r[1] == s && !Contains(r[0], sep)
  {
    match IndexOf(s, sep)
    case None => [s]
    case Some(i) =>
      PieceBeforeFirstIsFree(s, sep, i);
      assert s[..i] + sep + s[i + |sep|..] == s by {
        assert s == s[..i] + s[i..i + |sep|] + s[i + |sep|..];
      }
      [s[..i], s[i + |sep|..]]
  }

  /** `s` is `sep` written zero or more times. */
  predicate IsRepetition(s: string, sep: string)
    requires |sep| > 0
    decreases |s|
  {
    |s| == 0 || (IsAt(s, sep, 0) && IsRepetition(s[|sep|..], sep))
  }

  predicate AllEmpty(parts: seq<string>) {
    forall k :: 0 <= k < |parts| ==> parts[k] == ""
  }

  /** Splitting yields nothing but empty pieces exactly when the text is the
      separator repeated. */
  lemma {:induction false} EmptySegmentsIffRepetition(s: string, sep: string)
    requires |sep| > 0
    decreases |s|
    ensures AllEmpty(Segments(s, sep)) <==> IsRepetition(s, sep)
  {
    match IndexOf(s, sep)
    case None =>
      assert Segments(s, sep) == [s];
      assert !IsAt(s, sep, 0);
    case Some(i) =>
      var rest := s[i + |sep|..];
      assert Segments(s, sep) == [s[..i]] + Segments(rest, sep);
      EmptySegmentsIffRepetition(rest, sep);
      if i == 0 {
        assert s[|sep|..] == rest;
        assert AllEmpty(Segments(s, sep)) <==> AllEmpty(Segments(rest, sep));
      } else {
        assert !IsAt(s, sep, 0);
        assert Segments(s, sep)[0] != "";
      }
  }

  /** After dropping trailing empty pieces, `[a] + ys` keeps a second piece
      exactly when some piece of `ys` is non-empty, and that second piece is
      `ys[0]`. */
  lemma SecondPieceSurvives(a: string, ys: seq<string>)
    ensures |DropTrailingEmpty([a] + ys)| >= 2 <==> !AllEmpty(ys)
    ensures |DropTrailingEmpty([a] + ys)| >= 2 ==> DropTrailingEmpty([a] + ys)[1] == ys[0]
  {
    var xs := [a] + ys;
    var d := DropTrailingEmpty(xs);
    if |d| >= 2 {
      assert xs[|d| - 1] == d[|d| - 1];
      assert ys[|d| - 2] != "";
    } else {
      forall k | 0 <= k < |ys|
        ensures ys[k] == ""
      {
        assert xs[k + 1] == ys[k];
      }
    }
  }

  /** The second piece of `s.split(sep)`, when there is one, is the text
      between the first and the second occurrence of `sep`; there is one
      exactly when what follows the first occurrence is not just more
      separators. */
  lemma SplitSecondPiece(s: string, sep: string)
    requires |sep| > 0
    ensures |Split(s, sep)| >= 2 <==> Contains(s, sep) && !IsRepetition(AfterFirst(s, sep), sep)
    ensures |Split(s, sep)| >= 2 ==> Split(s, sep)[1] == BeforeFirst(AfterFirst(s, sep), sep)
  {
    if !Contains(s, sep) {
      return;
    }
    var i := IndexOf(s, sep).value;
    var rest := AfterFirst(s, sep);
    assert Segments(s, sep) == [s[..i]] + Segments(rest, sep);
    assert Split(s, sep) == DropTrailingEmpty([s[..i]] + Segments(rest, sep));
    EmptySegmentsIffRepetition(rest, sep);
    SecondPieceSurvives(s[..i], Segments(rest, sep));
    assert Segments(rest, sep)[0] == BeforeFirst(rest, sep);
  }

  /** `Character.isWhitespace`: the ASCII controls 9 to 13 and 28 to 31, and
      the Unicode space, line and paragraph separators other than the
      non-breaking ones. */
  predicate IsWhitespace(c: char) {
    || ('\U{0009}' <= c <= '\U{000D}')
    || ('\U{001C}' <= c <= '\U{0020}')
    || c == '\U{1680}'
    || ('\U{2000}' <= c <= '\U{2006}')
    || ('\U{2008}' <= c <= '\U{200A}')
    || c == '\U{2028}' || c == '\U{2029}' || c == '\U{205F}' || c == '\U{3000}'
  }

  /** `StringUtils.hasText`: some character is not whitespace. */
  function HasText(s: string): (r: bool)
    ensures r ==> |s| > 0
    ensures (forall i :: 0 <= i < |s| ==> IsWhitespace(s[i])) ==> !r
  {
    exists i | 0 <= i < |s| :: !IsWhitespace(s[i])
  }

  /** `StringUtils.hasText` as Spring computes it: reject the empty string,
      then scan for the first character that is not whitespace. */
  method ScanHasText(s: string) returns (b: bool)
    ensures b <==> HasText(s)
    ensures b ==> exists i :: 0 <= i < |s| && !IsWhitespace(s[i])
  {
    if |s| == 0 {
      return false;
    }
    var i := 0;
    while i < |s|
      invariant 0 <= i <= |s|
      invariant forall j :: 0 <= j < i ==> IsWhitespace(s[j])
    {
      if !IsWhitespace(s[i]) {
        return true;
      }
      i := i + 1;
    }
    return false;
  }

  function UpperChar(c: char): char {
    if 'a' <= c <= 'z' then (c as int - 32) as char else c
  }

  predicate IsUpper(s: string) {
    forall i :: 0 <= i < |s| ==> !('a' <= s[i] <= 'z')
  }

  /** `toUpperCase` on ASCII letters: the same length, each lower-case letter
      replaced by its capital, everything else kept. */
  function ToUpper(s: string): (r: string)
    ensures |r| == |s|
    ensures IsUpper(r)
    ensures forall i :: 0 <= i < |s| && !('a' <= s[i] <= 'z') ==> r[i] == s[i]
    ensures forall i :: 0 <= i < |s| && 'a' <= s[i] <= 'z' ==> r[i] as int == s[i] as int - 32
  {
    seq(|s|, i requires 0 <= i < |s| => UpperChar(s[i]))
  }

  /** Upper-casing leaves upper-case text alone, so it is idempotent. */
  lemma UpperCaseIsFixed(s: string)
    requires IsUpper(s)
    ensures ToUpper(s) == s
  {
  }
}

=== FILE: user_service.dfy ===
/** `UserService`: the user-lifecycle workflows over three stores that fail
    independently — the users table, the identity provider's accounts and the
    mail sender's outbox.

    Each workflow is a pure function of the stores before it and of the
    outcome of every external call it may make (an `Err` outcome stands for
    the exception that call would throw). It returns the workflow's result,
    the stores after it, and the trace of the calls it made. Later steps run
    only when the earlier ones succeeded, and nothing is compensated: what a
    failed step leaves behind stays. */
module UserService {
  import opened Outcomes
  import opened Text
  import opened UsersRepository
  import opened IdentityProvider
  import opened Calls

  const EmailInUseOnCreate := "El correo ya est\U{00E1} en uso."
  const EmailInUse := "El correo ya est\U{00E1} en uso"
  const UserNotFound := "Usuario no encontrado"
  const NotRegistered := "\U{274C} El email no est\U{00E1} registrado en el sistema."
  const NotInProvider := "\U{274C} El correo no existe en Firebase"
  const ErrorPrefix := "\U{26A0}\U{FE0F} Error: "
  const ResetSentPrefix := "\U{2705} Enlace enviado correctamente a: "
  const DefaultRole := "USER"

  /** The public view of a row (`UserDto`): every field but the password
      hash. */
  datatype UserDto = UserDto(
    id: Option<int>,
    firebaseUid: Option<Uid>,
    name: Option<string>,
    lastName: Option<string>,
    documentType: Option<string>,
    documentNumber: Option<string>,
    cellPhone: Option<string>,
    email: string,
    role: seq<string>,
    profileImage: Option<string>)

  /** What an administrator submits to create a user (`UserCreateDto`). */
  datatype UserCreateDto = UserCreateDto(
    name: Option<string>,
    lastName: Option<string>,
    documentType: Option<string>,
    documentNumber: Option<string>,
    cellPhone: Option<string>,
    email: string,
    password: string,
    role: seq<string>,
    profileImage: Option<string>)

  datatype Mail = Mail(to: string, link: string)

  /** The three stores. */
  datatype World = World(table: Table, accounts: Accounts, outbox: seq<Mail>)

  /** What a workflow ends with. */
  datatype Step<T> = Step(result: Result<T>, world: World, trace: seq<Call>)

  /** The table keeps its primary key and at most one row per email. */
  predicate TableInv(t: Table) {
    Wf(t) && UniqueEmails(t)
  }

  /** Rebuilds a row from its public view and its password hash. */
  function WithPassword(d: UserDto, password: string): User {
    User(d.id, d.firebaseUid, d.name, d.lastName, d.documentType, d.documentNumber,
         d.cellPhone, d.email, password, d.role, d.profileImage)
  }

  /** `toDto`: the public view loses the password hash and nothing else. */
  function ToDto(u: User): (d: UserDto)
    ensures WithPassword(d, u.password) == u
  {
    UserDto(u.id, u.firebaseUid, u.name, u.lastName, u.documentType, u.documentNumber,
            u.cellPhone, u.email, u.role, u.profileImage)
  }

  /** The role claim pushed for a role list: the first role upper-cased, or
      `"USER"` when the list is empty. */
  function PrimaryRoleClaim(roles: seq<string>): (c: string)
    ensures IsUpper(c)
    ensures |roles| == 0 ==> c == DefaultRole
    ensures |roles| > 0 ==> |c| == |roles[0]|
    ensures |roles| > 0 && IsUpper(roles[0]) ==> c == roles[0]
    ensures |roles| > 0 ==> forall i :: 0 <= i < |c| ==> c[i] == UpperChar(roles[0][i])
  {
    var primary := if |roles| == 0 then DefaultRole else roles[0];
    assert IsUpper(primary) ==> ToUpper(primary) == primary by {
      if IsUpper(primary) {
        UpperCaseIsFixed(primary);
      }
    }
    ToUpper(primary)
  }

  /* ---------------------------------------------------------------- */
  /* Field frames                                                      */
  /* ---------------------------------------------------------------- */

  /** The fields no profile edit may touch. */
  predicate KeepsIdentity(before: User, after: User) {
    && after.id == before.id
    && after.firebaseUid == before.firebaseUid
    && after.email == before.email
    && after.password == before.password
  }

  /** The six profile fields both edits copy from the submitted view. */
  predicate CarriesProfile(after: User, dto: UserDto) {
    && after.name == dto.name
    && after.lastName == dto.lastName
    && after.documentType == dto.documentType
    && after.documentNumber == dto.documentNumber
    && after.cellPhone == dto.cellPhone
    && after.profileImage == dto.profileImage
  }

  /** The row created for a request, under the uid the provider assigned. */
  predicate CreatedFrom(row: User, dto: UserCreateDto, uid: Uid, encode: string -> string) {
    && row.firebaseUid == Some(uid)
    && row.email == dto.email
    && row.password == encode(dto.password)
    && row.role == dto.role
    && row.name == dto.name
    && row.lastName == dto.lastName
    && row.documentType == dto.documentType
    && row.documentNumber == dto.documentNumber
    && row.cellPhone == dto.cellPhone
    && row.profileImage == dto.profileImage
  }

  /** Only the row at position `k` may differ. */
  predicate OnlyRowChanged(before: Table, after: Table, k: nat) {
    && |after.rows| == |before.rows|
    && after.nextId == before.nextId
    && forall i :: 0 <= i < |before.rows| && i != k ==> after.rows[i] == before.rows[i]
  }

  /** Overwriting a stored row through `save` changes that row alone. */
  lemma OverwriteChangesOneRow(t: Table, k: nat, u: User)
    requires Wf(t)
    requires k < |t.rows| && u.id == t.rows[k].id
    ensures var s := Save(t, u); OnlyRowChanged(t, s.table, k) && s.table.rows[k] == u
    ensures var s := Save(t, u); Wf(s.table)
  {
    assert Find(t, ById(u.id.value)).Some? by {
      assert Matches(t.rows[k], ById(u.id.value));
    }
  }

  /** Overwriting a row with one whose email no other row has keeps the emails
      unique. */
  lemma OverwriteKeepsEmailsUnique(t: Table, k: nat, u: User)
    requires TableInv(t)
    requires k < |t.rows| && u.id == t.rows[k].id
    requires forall i :: 0 <= i < |t.rows| && i != k ==> t.rows[i].email != u.email
    ensures TableInv(Save(t, u).table)
  {
    OverwriteChangesOneRow(t, k, u);
  }

  /** `save` of an edited stored row, with what the edit keeps. */
  function StoreEdit(t: Table, k: nat, u: User): (r: Table)
    requires k < |t.rows| && u.id == t.rows[k].id
    ensures r == Save(t, u).table
    ensures Wf(t) ==> OnlyRowChanged(t, r, k) && r.rows[k] == u
    ensures TableInv(t) && (forall i :: 0 <= i < |t.rows| && i != k ==> t.rows[i].email != u.email) ==>
              TableInv(r)
  {
    var r := Save(t, u).table;
    assert Wf(t) ==> OnlyRowChanged(t, r, k) && r.rows[k] == u by {
      if Wf(t) {
        OverwriteChangesOneRow(t, k, u);
      }
    }
    assert TableInv(t) && (forall i :: 0 <= i < |t.rows| && i != k ==> t.rows[i].email != u.email) ==>
             TableInv(r) by {
      if TableInv(t) && (forall i :: 0 <= i < |t.rows| && i != k ==> t.rows[i].email != u.email) {
        OverwriteKeepsEmailsUnique(t, k, u);
      }
    }
    r
  }

  /* ---------------------------------------------------------------- */
  /* createUser                                                        */
  /* ---------------------------------------------------------------- */

  function NewRow(dto: UserCreateDto, uid: Uid, encode: string -> string): User {
    User(None, Some(uid), dto.name, dto.lastName, dto.documentType, dto.documentNumber,
         dto.cellPhone, dto.email, encode(dto.password), dto.role, dto.profileImage)
  }

  /** `createUser(dto)`: reject a taken email, create the account, push its
      role claim, then insert the row. */
  function CreateUser(w: World, dto: UserCreateDto, encode: string -> string,
                      created: Result<Uid>, claimed: Result<()>, saved: Result<()>): (s: Step<UserDto>)
    // a taken email is rejected with every store as it was
    ensures EmailTaken(w.table, dto.email) ==> s.result == Err(EmailInUseOnCreate) && s.world == w
    ensures s.result.Ok? <==>
              !EmailTaken(w.table, dto.email) && created.Ok? && claimed.Ok? && saved.Ok?
    // no row unless every step succeeded
    ensures s.result.Err? ==> s.world.table == w.table
    // a failed account creation leaves every store as it was
    ensures created.Err? ==> s.world == w
    // a failed claim leaves the new account behind, without a claim
    ensures !EmailTaken(w.table, dto.email) && created.Ok? && claimed.Err? ==>
              && created.value in s.world.accounts
              && s.world.accounts[created.value] == Account(dto.email, dto.password, false, false, None)
    // success: one row appended for the new account, whose claim is set
    ensures s.result.Ok? ==>
              && |s.world.table.rows| == |w.table.rows| + 1
              && s.world.table.rows[..|w.table.rows|] == w.table.rows
              && var row := s.world.table.rows[|w.table.rows|];
                 && CreatedFrom(row, dto, created.value, encode)
                 && row.id == Some(w.table.nextId)
                 && s.result.value == ToDto(row)
    ensures !EmailTaken(w.table, dto.email) && created.Ok? && claimed.Ok? ==>
              && created.value in s.world.accounts
              && s.world.accounts[created.value]
                   == Account(dto.email, dto.password, false, false, Some(PrimaryRoleClaim(dto.role)))
    // no account but the new one changes
    ensures forall v :: v in w.accounts && !(created.Ok? && v == created.value) ==>
              v in s.world.accounts && s.world.accounts[v] == w.accounts[v]
    ensures forall v :: v in s.world.accounts ==> v in w.accounts || (created.Ok? && v == created.value)
    ensures s.world.outbox == w.outbox
    ensures TableInv(w.table) ==> TableInv(s.world.table)
  {
    var find := RepoFindByEmail(dto.email);
    var create := ProviderCreate(dto.email, dto.password);
    if FindByEmail(w.table, dto.email).Some? then
      Step(Err(EmailInUseOnCreate), w, [find])
    else
      match created
      case Err(m) => Step(Err(m), w, [find, create])
      case Ok(uid) =>
        var a1 := CreateAccount(w.accounts, uid, dto.email, dto.password);
        var role := PrimaryRoleClaim(dto.role);
        var claim := ProviderSetClaims(uid, role);
        match claimed
        case Err(m) => Step(Err(m), w.(accounts := a1), [find, create, claim])
        case Ok(_) =>
          var a2 := SetRoleClaim(a1, uid, role);
          var row := NewRow(dto, uid, encode);
          var trace := [find, create, claim, RepoSave(row)];
          match saved
          case Err(m) => Step(Err(m), w.(accounts := a2), trace)
          case Ok(_) =>
            var stored := Save(w.table, row);
            assert TableInv(w.table) ==> TableInv(stored.table) by {
              if TableInv(w.table) {
                InsertKeepsInvariants(w.table, row);
              }
            }
            Step(Ok(ToDto(stored.row)), World(stored.table, a2, w.outbox), trace)
  }

  /** The calls `createUser` makes: for a taken email, none to the provider
      and no write; otherwise the provider before the table, one claim push
      exactly when the account was created, and a save exactly when the claim
      was set. */
  lemma CreateUserCalls(w: World, dto: UserCreateDto, encode: string -> string,
                        created: Result<Uid>, claimed: Result<()>, saved: Result<()>)
    ensures var s := CreateUser(w, dto, encode, created, claimed, saved);
            && (EmailTaken(w.table, dto.email) ==> !CallsProvider(s.trace) && !WritesTable(s.trace))
            && ProviderWritesFirst(s.trace)
            && (if !EmailTaken(w.table, dto.email) && created.Ok?
                then PushesOneClaim(s.trace, created.value, PrimaryRoleClaim(dto.role))
                else PushesNoClaim(s.trace))
            && (WritesTable(s.trace) <==> !EmailTaken(w.table, dto.email) && created.Ok? && claimed.Ok?)
  {
    var s := CreateUser(w, dto, encode, created, claimed, saved);
    var find := RepoFindByEmail(dto.email);
    var create := ProviderCreate(dto.email, dto.password);
    if FindByEmail(w.table, dto.email).Some? {
      assert s.trace == [find];
      Trace1(find);
    } else {
      match created
      case Err(_) =>
        assert s.trace == [find, create];
        Trace2(find, create);
      case Ok(uid) =>
        var claim := ProviderSetClaims(uid, PrimaryRoleClaim(dto.role));
        match claimed
        case Err(_) =>
          assert s.trace == [find, create, claim];
          Trace3(find, create, claim);
        case Ok(_) =>
          assert s.trace == [find, create, claim, RepoSave(NewRow(dto, uid, encode))];
          Trace4(find, create, claim, RepoSave(NewRow(dto, uid, encode)));
    }
  }

  /** The order of those calls: the email check, the account, its role
      claim, the row. */
  lemma CreateUserCallOrder(w: World, dto: UserCreateDto, encode: string -> string,
                            created: Result<Uid>, claimed: Result<()>, saved: Result<()>)
    ensures var s := CreateUser(w, dto, encode, created, claimed, saved);
            && |s.trace| >= 1 && s.trace[0] == RepoFindByEmail(dto.email)
            && (!EmailTaken(w.table, dto.email) ==>
                  |s.trace| >= 2 && s.trace[1] == ProviderCreate(dto.email, dto.password))
            && (!EmailTaken(w.table, dto.email) && created.Ok? ==>
                  |s.trace| >= 3 && s.trace[2] == ProviderSetClaims(created.value, PrimaryRoleClaim(dto.role)))
            && (!EmailTaken(w.table, dto.email) && created.Ok? && claimed.Ok? ==>
                  |s.trace| == 4 && s.trace[3] == RepoSave(NewRow(dto, created.value, encode)))
  {
  }

  /* ---------------------------------------------------------------- */
  /* updateUser                                                        */
  /* ---------------------------------------------------------------- */

  /** The row an administrator's edit produces. */
  function AdminEdit(u: User, dto: UserDto): User {
    u.(name := dto.name, lastName := dto.lastName, documentType := dto.documentType,
       documentNumber := dto.documentNumber, cellPhone := dto.cellPhone,
       profileImage := dto.profileImage, role := dto.role)
  }

  /** Whether `updateUser` pushes a claim: the stored role list differs from
      the submitted one and the row has an identity uid. */
  predicate PushesClaimOnUpdate(before: User, dto: UserDto) {
    before.role != dto.role && before.firebaseUid.Some?
  }

  /** `updateUser(id, dto)`: overwrite the editable fields and the roles, save,
      and only then push the new primary role when the roles changed. */
  function UpdateUser(w: World, id: int, dto: UserDto, saved: Result<()>, claimed: Result<()>): (s: Step<UserDto>)
    ensures FindById(w.table, id).None? ==> s.result == Err(UserNotFound) && s.world == w
    ensures FindById(w.table, id).None? || saved.Err? ==> s.world == w
    ensures s.result.Ok? <==>
              && FindById(w.table, id).Some? && saved.Ok?
              && (PushesClaimOnUpdate(FindById(w.table, id).value, dto) ==> claimed.Ok?)
    // after the save, the row holds the edit whatever the claim push did
    ensures Wf(w.table) && FindIndex(w.table.rows, ById(id)).Some? && saved.Ok? ==>
              var k := FindIndex(w.table.rows, ById(id)).value;
              && OnlyRowChanged(w.table, s.world.table, k)
              && KeepsIdentity(w.table.rows[k], s.world.table.rows[k])
              && CarriesProfile(s.world.table.rows[k], dto)
              && s.world.table.rows[k].role == dto.role
    // the accounts change only by a claim push that went through
    ensures s.world.accounts ==
              if FindById(w.table, id).Some? && saved.Ok? && PushesClaimOnUpdate(FindById(w.table, id).value, dto)
                 && claimed.Ok?
              then SetRoleClaim(w.accounts, FindById(w.table, id).value.firebaseUid.value, PrimaryRoleClaim(dto.role))
              else w.accounts
    ensures s.result.Ok? ==> s.result.value == ToDto(AdminEdit(FindById(w.table, id).value, dto))
    ensures s.world.outbox == w.outbox
    ensures TableInv(w.table) ==> TableInv(s.world.table)
  {
    var find := RepoFindById(id);
    match FindIndex(w.table.rows, ById(id))
    case None => Step(Err(UserNotFound), w, [find])
    case Some(k) =>
      var existing := w.table.rows[k];
      var roleChanged := existing.role != dto.role;
      var edited := AdminEdit(existing, dto);
      var save := RepoSave(edited);
      match saved
      case Err(m) => Step(Err(m), w, [find, save])
      case Ok(_) =>
        var table := Save(w.table, edited).table;
        assert TableInv(w.table) ==> TableInv(table) by {
          if TableInv(w.table) {
            OverwriteKeepsEmailsUnique(w.table, k, edited);
          }
        }
        assert Wf(w.table) ==> OnlyRowChanged(w.table, table, k) && table.rows[k] == edited by {
          if Wf(w.table) {
            OverwriteChangesOneRow(w.table, k, edited);
          }
        }
        var w1 := w.(table := table);
        if roleChanged && edited.firebaseUid.Some? then
          var uid := edited.firebaseUid.value;
          var role := PrimaryRoleClaim(edited.role);
          var trace := [find, save, ProviderSetClaims(uid, role)];
          match claimed
          case Err(m) => Step(Err(m), w1, trace)
          case Ok(_) => Step(Ok(ToDto(edited)), w1.(accounts := SetRoleClaim(w.accounts, uid, role)), trace)
        else
          Step(Ok(ToDto(edited)), w1, [find, save])
  }

  /** The calls `updateUser` makes: nothing but the lookup for an unknown
      id; the table before the provider; exactly one claim, with the new
      primary role, iff the roles changed on a row with a uid and the save went
      through, and none otherwise. */
  lemma UpdateUserCalls(w: World, id: int, dto: UserDto, saved: Result<()>, claimed: Result<()>)
    ensures var s := UpdateUser(w, id, dto, saved, claimed);
            && (FindById(w.table, id).None? ==> !CallsProvider(s.trace) && !WritesTable(s.trace))
            && TableWritesFirst(s.trace)
            && (if FindById(w.table, id).Some? && saved.Ok? && PushesClaimOnUpdate(FindById(w.table, id).value, dto)
                then PushesOneClaim(s.trace, FindById(w.table, id).value.firebaseUid.value, PrimaryRoleClaim(dto.role))
                else PushesNoClaim(s.trace))
  {
    var s := UpdateUser(w, id, dto, saved, claimed);
    var find := RepoFindById(id);
    match FindIndex(w.table.rows, ById(id))
    case None =>
      assert s.trace == [find];
      Trace1(find);
    case Some(k) =>
      var existing := w.table.rows[k];
      var save := RepoSave(AdminEdit(existing, dto));
      if saved.Err? || !PushesClaimOnUpdate(existing, dto) {
        assert s.trace == [find, save];
        Trace2(find, save);
      } else {
        var claim := ProviderSetClaims(existing.firebaseUid.value, PrimaryRoleClaim(dto.role));
        assert s.trace == [find, save, claim];
        Trace3(find, save, claim);
      }
  }

  /** The order of those calls: the lookup, the save of the edited row for a
      known id, then the claim push when one is due; the trace stops at the
      first failure. */
  lemma UpdateUserCallOrder(w: World, id: int, dto: UserDto, saved: Result<()>, claimed: Result<()>)
    ensures var s := UpdateUser(w, id, dto, saved, claimed);
            && |s.trace| >= 1 && s.trace[0] == RepoFindById(id)
            && (FindById(w.table, id).None? ==> |s.trace| == 1)
            && (FindById(w.table, id).Some? ==>
                  |s.trace| >= 2 && s.trace[1] == RepoSave(AdminEdit(FindById(w.table, id).value, dto)))
            && (WritesTable(s.trace) <==> FindById(w.table, id).Some?)
            && (FindById(w.table, id).Some? && saved.Ok? && PushesClaimOnUpdate(FindById(w.table, id).value, dto) ==>
                  && |s.trace| == 3
                  && s.trace[2] == ProviderSetClaims(FindById(w.table, id).value.firebaseUid.value, PrimaryRoleClaim(dto.role)))
            && (FindById(w.table, id).Some? && !(saved.Ok? && PushesClaimOnUpdate(FindById(w.table, id).value, dto)) ==>
                  |s.trace| == 2)
  {
    var s := UpdateUser(w, id, dto, saved, claimed);
    var find := RepoFindById(id);
    match FindIndex(w.table.rows, ById(id))
    case None =>
      assert s.trace == [find];
      Trace1(find);
    case Some(k) =>
      var existing := w.table.rows[k];
      var save := RepoSave(AdminEdit(existing, dto));
      if saved.Err? || !PushesClaimOnUpdate(existing, dto) {
        assert s.trace == [find, save];
        Trace2(find, save);
      } else {
        var claim := ProviderSetClaims(existing.firebaseUid.value, PrimaryRoleClaim(dto.role));
        assert s.trace == [find, save, claim];
        Trace3(find, save, claim);
      }
  }

  /* ---------------------------------------------------------------- */
  /* deleteUser                                                        */
  /* ---------------------------------------------------------------- */

  /** `deleteUser(id)`: delete the account first when the row has a uid, then
      the row. */
  function DeleteUser(w: World, id: int, removed: Result<()>, deleted: Result<()>): (s: Step<()>)
    ensures FindById(w.table, id).None? ==> s.result == Err(UserNotFound) && s.world == w
    // a row without uid: the accounts stay
    ensures FindById(w.table, id).Some? && FindById(w.table, id).value.firebaseUid.None? ==>
              s.world.accounts == w.accounts
    // a failed account deletion keeps the row (and everything else)
    ensures FindById(w.table, id).Some? && FindById(w.table, id).value.firebaseUid.Some? && removed.Err? ==>
              s.result.Err? && s.world == w
    // a failed row deletion keeps the row, even when the account is gone
    ensures deleted.Err? ==> s.result.Err? && s.world.table == w.table
    // once the account deletion went through, the account is gone whatever
    // happens to the row
    ensures FindById(w.table, id).Some? && FindById(w.table, id).value.firebaseUid.Some? && removed.Ok? ==>
              s.world.accounts == DeleteAccount(w.accounts, FindById(w.table, id).value.firebaseUid.value)
    ensures s.result.Ok? ==>
              && s.world.table == DeleteById(w.table, id)
              && FindById(s.world.table, id).None?
              && (forall u :: u in w.table.rows && u.id != Some(id) ==> u in s.world.table.rows)
              && var uid := FindById(w.table, id).value.firebaseUid;
                 uid.Some? ==> uid.value !in s.world.accounts
    ensures s.result.Ok? <==>
              && FindById(w.table, id).Some?
              && (FindById(w.table, id).value.firebaseUid.None? || removed.Ok?)
              && deleted.Ok?
    ensures s.world.outbox == w.outbox
    ensures TableInv(w.table) ==> TableInv(s.world.table)
  {
    var find := RepoFindById(id);
    var remove := RepoDeleteById(id);
    match FindIndex(w.table.rows, ById(id))
    case None => Step(Err(UserNotFound), w, [find])
    case Some(k) =>
      match w.table.rows[k].firebaseUid
      case None =>
        (match deleted
         case Err(m) => Step(Err(m), w, [find, remove])
         case Ok(_) => Step(Ok(()), w.(table := DeleteById(w.table, id)), [find, remove]))
      case Some(uid) =>
        var w1 := w.(accounts := DeleteAccount(w.accounts, uid));
        var trace := [find, ProviderDelete(uid), remove];
        match removed
        case Err(m) => Step(Err(m), w, [find, ProviderDelete(uid)])
        case Ok(_) =>
          match deleted
          case Err(m) => Step(Err(m), w1, trace)
          case Ok(_) => Step(Ok(()), w1.(table := DeleteById(w.table, id)), trace)
  }

  /** The calls `deleteUser` makes: nothing but the lookup for an unknown
      id; no provider call for a row without uid; otherwise the account
      deletion before the row deletion, and no row deletion once the account
      deletion failed. */
  lemma DeleteUserCalls(w: World, id: int, removed: Result<()>, deleted: Result<()>)
    ensures var s := DeleteUser(w, id, removed, deleted);
            && (FindById(w.table, id).None? ==> !CallsProvider(s.trace) && !WritesTable(s.trace))
            && ProviderWritesFirst(s.trace)
            && (FindById(w.table, id).Some? && FindById(w.table, id).value.firebaseUid.None? ==>
                  !CallsProvider(s.trace) && WritesTable(s.trace))
            && (FindById(w.table, id).Some? && FindById(w.table, id).value.firebaseUid.Some? ==>
                  && s.trace[1] == ProviderDelete(FindById(w.table, id).value.firebaseUid.value)
                  && (WritesTable(s.trace) <==> removed.Ok?))
  {
    var s := DeleteUser(w, id, removed, deleted);
    var find := RepoFindById(id);
    var remove := RepoDeleteById(id);
    match FindIndex(w.table.rows, ById(id))
    case None =>
      assert s.trace == [find];
      Trace1(find);
    case Some(k) =>
      match w.table.rows[k].firebaseUid
      case None =>
        assert s.trace == [find, remove];
        Trace2(find, remove);
      case Some(uid) =>
        if removed.Err? {
          assert s.trace == [find, ProviderDelete(uid)];
          Trace2(find, ProviderDelete(uid));
        } else {
          assert s.trace == [find, ProviderDelete(uid), remove];
          Trace3(find, ProviderDelete(uid), remove);
        }
  }

  /* ---------------------------------------------------------------- */
  /* Self lookup: findAll().filter(uid).next()                         */
  /* ---------------------------------------------------------------- */

  /** The rows carrying `uid`, in table order. */
  function RowsWithUid(rows: seq<User>, uid: Uid): (r: seq<User>)
    ensures forall u :: u in r ==> u in rows && u.firebaseUid == Some(uid)
  {
    if |rows| == 0 then []
    else (if rows[0].firebaseUid == Some(uid) then [rows[0]] else []) + RowsWithUid(rows[1..], uid)
  }

  /** The caller's own row as the self-service workflows find it: a scan over
      every row that keeps the first one carrying the uid. */
  function SelfLookup(t: Table, uid: Uid): (r: Option<User>)
    ensures r.Some? <==> exists i :: 0 <= i < |t.rows| && t.rows[i].firebaseUid == Some(uid)
    ensures r.Some? ==> exists k :: 0 <= k < |t.rows|
                          && t.rows[k] == r.value
                          && t.rows[k].firebaseUid == Some(uid)
                          && (forall j :: 0 <= j < k ==> t.rows[j].firebaseUid != Some(uid))
  {
    var matching := RowsWithUid(FindAll(t), uid);
    ScanKeepsFirstMatch(t.rows, uid, 0);
    assert t.rows[0..] == t.rows;
    if |matching| == 0 then None else Some(matching[0])
  }

  /** Scanning the rows from position `from` keeps the same row as the
      indexed lookup started there. */
  lemma {:induction false} ScanKeepsFirstMatch(rows: seq<User>, uid: Uid, from: nat)
    requires from <= |rows|
    ensures var found := FindIndexFrom(rows, ByUid(uid), from);
            && (|RowsWithUid(rows[from..], uid)| == 0 <==> found.None?)
            && (found.Some? ==> RowsWithUid(rows[from..], uid)[0] == rows[found.value])
    decreases |rows| - from
  {
    if from < |rows| {
      assert rows[from..][0] == rows[from];
      assert rows[from..][1..] == rows[from + 1..];
      if !Matches(rows[from], ByUid(uid)) {
        ScanKeepsFirstMatch(rows, uid, from + 1);
      }
    }
  }

  /** The scan over every row and the indexed `findByFirebaseUid` lookup
      return the same row. */
  lemma SelfLookupIsFindByFirebaseUid(t: Table, uid: Uid)
    ensures SelfLookup(t, uid) == FindByFirebaseUid(t, uid)
    ensures SelfLookup(t, uid).Some? ==>
              SelfLookup(t, uid) == Some(t.rows[FindIndex(t.rows, ByUid(uid)).value])
  {
    ScanKeepsFirstMatch(t.rows, uid, 0);
    assert t.rows[0..] == t.rows;
  }

  /* ---------------------------------------------------------------- */
  /* changeEmail                                                       */
  /* ---------------------------------------------------------------- */

  /** `changeEmail(uid, newEmail)`: find the caller's row, reject an email any
      row already has (the caller's own included), change the account's email,
      then the row's. */
  function ChangeEmail(w: World, uid: Uid, newEmail: string,
                       updated: Result<()>, saved: Result<()>): (s: Step<UserDto>)
    ensures FindByFirebaseUid(w.table, uid).None? ==> s.result == Err(UserNotFound) && s.world == w
    ensures FindByFirebaseUid(w.table, uid).Some? && EmailTaken(w.table, newEmail) ==>
              s.result == Err(EmailInUse) && s.world == w
    ensures s.result.Ok? <==>
              FindByFirebaseUid(w.table, uid).Some? && !EmailTaken(w.table, newEmail) && updated.Ok? && saved.Ok?
    // a failed provider update leaves every store as it was
    ensures updated.Err? ==> s.world == w
    ensures s.result.Err? ==> s.world.table == w.table
    // once the provider update went through, it stays, whatever the save does
    ensures FindByFirebaseUid(w.table, uid).Some? && !EmailTaken(w.table, newEmail) && updated.Ok? ==>
              s.world.accounts == UpdateEmail(w.accounts, uid, newEmail)
    ensures Wf(w.table) && s.result.Ok? ==>
              var k := FindIndex(w.table.rows, ByUid(uid)).value;
              && OnlyRowChanged(w.table, s.world.table, k)
              && s.world.table.rows[k] == w.table.rows[k].(email := newEmail)
              && s.result.value == ToDto(s.world.table.rows[k])
    ensures s.world.outbox == w.outbox
    ensures TableInv(w.table) ==> TableInv(s.world.table)
  {
    var scan := RepoFindAll;
    var find := RepoFindByEmail(newEmail);
    var update := ProviderUpdateEmail(uid, newEmail);
    SelfLookupIsFindByFirebaseUid(w.table, uid);
    match SelfLookup(w.table, uid)
    case None => Step(Err(UserNotFound), w, [scan])
    case Some(user) =>
      if FindByEmail(w.table, newEmail).Some? then
        Step(Err(EmailInUse), w, [scan, find])
      else
        match updated
        case Err(m) => Step(Err(m), w, [scan, find, update])
        case Ok(_) =>
          var w1 := w.(accounts := UpdateEmail(w.accounts, uid, newEmail));
          var changed := user.(email := newEmail);
          var trace := [scan, find, update, RepoSave(changed)];
          match saved
          case Err(m) => Step(Err(m), w1, trace)
          case Ok(_) =>
            var k := FindIndex(w.table.rows, ByUid(uid)).value;
            var table := StoreEdit(w.table, k, changed);
            Step(Ok(ToDto(changed)), w1.(table := table), trace)
  }

  /** The calls `changeEmail` makes: the provider is called iff the caller
      has a row and no row has the new email; the provider before the table;
      a save only after a provider update that went through. */
  lemma ChangeEmailCalls(w: World, uid: Uid, newEmail: string, updated: Result<()>, saved: Result<()>)
    ensures var s := ChangeEmail(w, uid, newEmail, updated, saved);
            && (CallsProvider(s.trace) <==> FindByFirebaseUid(w.table, uid).Some? && !EmailTaken(w.table, newEmail))
            && (WritesTable(s.trace) <==>
                  FindByFirebaseUid(w.table, uid).Some? && !EmailTaken(w.table, newEmail) && updated.Ok?)
            && ProviderWritesFirst(s.trace)
  {
    var s := ChangeEmail(w, uid, newEmail, updated, saved);
    var scan := RepoFindAll;
    var find := RepoFindByEmail(newEmail);
    var update := ProviderUpdateEmail(uid, newEmail);
    SelfLookupIsFindByFirebaseUid(w.table, uid);
    match SelfLookup(w.table, uid)
    case None =>
      assert s.trace == [scan];
      Trace1(scan);
    case Some(user) =>
      if FindByEmail(w.table, newEmail).Some? {
        assert s.trace == [scan, find];
        Trace2(scan, find);
      } else if updated.Err? {
        assert s.trace == [scan, find, update];
        Trace3(scan, find, update);
      } else {
        var save := RepoSave(user.(email := newEmail));
        assert s.trace == [scan, find, update, save];
        Trace4(scan, find, update, save);
      }
  }

  /** The order of those calls: the scan, the email check, the provider's
      email update, the save of the changed row; the trace stops at the first
      failure. */
  lemma ChangeEmailCallOrder(w: World, uid: Uid, newEmail: string, updated: Result<()>, saved: Result<()>)
    ensures var s := ChangeEmail(w, uid, newEmail, updated, saved);
            && |s.trace| >= 1 && s.trace[0] == RepoFindAll
            && (FindByFirebaseUid(w.table, uid).None? ==> |s.trace| == 1)
            && (FindByFirebaseUid(w.table, uid).Some? ==> |s.trace| >= 2 && s.trace[1] == RepoFindByEmail(newEmail))
            && (FindByFirebaseUid(w.table, uid).Some? && EmailTaken(w.table, newEmail) ==> |s.trace| == 2)
            && (FindByFirebaseUid(w.table, uid).Some? && !EmailTaken(w.table, newEmail) ==>
                  |s.trace| >= 3 && s.trace[2] == ProviderUpdateEmail(uid, newEmail))
            && (FindByFirebaseUid(w.table, uid).Some? && !EmailTaken(w.table, newEmail) && updated.Err? ==>
                  |s.trace| == 3)
            && (FindByFirebaseUid(w.table, uid).Some? && !EmailTaken(w.table, newEmail) && updated.Ok? ==>
                  |s.trace| == 4 && s.trace[3] == RepoSave(FindByFirebaseUid(w.table, uid).value.(email := newEmail)))
  {
    SelfLookupIsFindByFirebaseUid(w.table, uid);
  }

  /* ---------------------------------------------------------------- */
  /* changePassword                                                    */
  /* ---------------------------------------------------------------- */

  /** `changePassword(uid, newPassword)`: find the caller's row, change the
      account's password, then store the encoded password in the row. */
  function ChangePassword(w: World, uid: Uid, newPassword: string, encode: string -> string,
                          updated: Result<()>, saved: Result<()>): (s: Step<UserDto>)
    ensures FindByFirebaseUid(w.table, uid).None? ==> s.result == Err(UserNotFound) && s.world == w
    ensures updated.Err? ==> s.world == w
    ensures s.result.Err? ==> s.world.table == w.table
    ensures FindByFirebaseUid(w.table, uid).Some? && updated.Ok? ==>
              s.world.accounts == UpdatePassword(w.accounts, uid, newPassword)
    ensures s.result.Ok? <==> FindByFirebaseUid(w.table, uid).Some? && updated.Ok? && saved.Ok?
    ensures Wf(w.table) && s.result.Ok? ==>
              var k := FindIndex(w.table.rows, ByUid(uid)).value;
              && OnlyRowChanged(w.table, s.world.table, k)
              && s.world.table.rows[k] == w.table.rows[k].(password := encode(newPassword))
              && s.result.value == ToDto(w.table.rows[k])
    ensures s.world.outbox == w.outbox
    ensures TableInv(w.table) ==> TableInv(s.world.table)
  {
    var scan := RepoFindAll;
    var update := ProviderUpdatePassword(uid, newPassword);
    SelfLookupIsFindByFirebaseUid(w.table, uid);
    match SelfLookup(w.table, uid)
    case None => Step(Err(UserNotFound), w, [scan])
    case Some(user) =>
      match updated
      case Err(m) => Step(Err(m), w, [scan, update])
      case Ok(_) =>
        var w1 := w.(accounts := UpdatePassword(w.accounts, uid, newPassword));
        var changed := user.(password := encode(newPassword));
        var trace := [scan, update, RepoSave(changed)];
        match saved
        case Err(m) => Step(Err(m), w1, trace)
        case Ok(_) =>
          var k := FindIndex(w.table.rows, ByUid(uid)).value;
          var table := StoreEdit(w.table, k, changed);
          Step(Ok(ToDto(changed)), w1.(table := table), trace)
  }

  /** The calls `changePassword` makes: the provider is called iff the
      caller has a row; the provider before the table; a save only after a
      provider update that went through. */
  lemma ChangePasswordCalls(w: World, uid: Uid, newPassword: string, encode: string -> string,
                            updated: Result<()>, saved: Result<()>)
    ensures var s := ChangePassword(w, uid, newPassword, encode, updated, saved);
            && (CallsProvider(s.trace) <==> FindByFirebaseUid(w.table, uid).Some?)
            && (WritesTable(s.trace) <==> FindByFirebaseUid(w.table, uid).Some? && updated.Ok?)
            && ProviderWritesFirst(s.trace)
  {
    var s := ChangePassword(w, uid, newPassword, encode, updated, saved);
    var scan := RepoFindAll;
    var update := ProviderUpdatePassword(uid, newPassword);
    SelfLookupIsFindByFirebaseUid(w.table, uid);
    match SelfLookup(w.table, uid)
    case None =>
      assert s.trace == [scan];
      Trace1(scan);
    case Some(user) =>
      if updated.Err? {
        assert s.trace == [scan, update];
        Trace2(scan, update);
      } else {
        var save := RepoSave(user.(password := encode(newPassword)));
        assert s.trace == [scan, update, save];
        Trace3(scan, update, save);
      }
  }

  /** The order of those calls: the scan, the provider's password update,
      the save of the row with the encoded password; the trace stops at the
      first failure. */
  lemma ChangePasswordCallOrder(w: World, uid: Uid, newPassword: string, encode: string -> string,
                                updated: Result<()>, saved: Result<()>)
    ensures var s := ChangePassword(w, uid, newPassword, encode, updated, saved);
            && |s.trace| >= 1 && s.trace[0] == RepoFindAll
            && (FindByFirebaseUid(w.table, uid).None? ==> |s.trace| == 1)
            && (FindByFirebaseUid(w.table, uid).Some? ==>
                  |s.trace| >= 2 && s.trace[1] == ProviderUpdatePassword(uid, newPassword))
            && (FindByFirebaseUid(w.table, uid).Some? && updated.Err? ==> |s.trace| == 2)
            && (FindByFirebaseUid(w.table, uid).Some? && updated.Ok? ==>
                  && |s.trace| == 3
                  && s.trace[2] == RepoSave(FindByFirebaseUid(w.table, uid).value.(password := encode(newPassword))))
  {
    SelfLookupIsFindByFirebaseUid(w.table, uid);
  }

  /* ---------------------------------------------------------------- */
  /* sendPasswordResetEmail                                            */
  /* ---------------------------------------------------------------- */

  /** The error handler of `sendPasswordResetEmail`: a message mentioning
      `NOT_FOUND` becomes the not-in-provider message, any other is kept
      behind a warning prefix. */
  function Rewrite(m: string): (r: string)
    ensures r == NotInProvider <==> Contains(m, "NOT_FOUND")
    ensures r != NotInProvider ==> ErrorPrefix <= r && r[|ErrorPrefix|..] == m
  {
    if Contains(m, "NOT_FOUND") then NotInProvider
    else
      assert (ErrorPrefix + m)[0] != NotInProvider[0];
      ErrorPrefix + m
  }

  /** The table's own not-registered message does not mention `NOT_FOUND`, so
      it reaches the caller behind the warning prefix. */
  lemma NotRegisteredIsPrefixed()
    ensures Rewrite(NotRegistered) == ErrorPrefix + NotRegistered
  {
    forall i | 0 <= i <= |NotRegistered| - 9
      ensures !IsAt(NotRegistered, "NOT_FOUND", i)
    {
      assert NotRegistered[i] != 'N';
      assert NotRegistered[i..i + 9][0] == NotRegistered[i];
    }
  }

  /** `sendPasswordResetEmail(email)`: the provider must know the email, the
      table must have a row with it; then a reset link is generated and
      mailed. `absent` is the provider's message when no account has the
      email; `lookup` is the outcome of a lookup that finds one. */
  function SendPasswordResetEmail(w: World, email: string, lookup: Result<()>, absent: string,
                                  link: Result<string>, sent: Result<()>): (s: Step<string>)
    ensures s.world.table == w.table && s.world.accounts == w.accounts
    ensures s.world.outbox != w.outbox ==> s.result.Ok?
    // every failure is rewritten and sends nothing
    ensures s.result.Err? ==>
              && s.world.outbox == w.outbox
              && (s.result.message == NotInProvider || ErrorPrefix <= s.result.message)
    ensures !HasAccountFor(w.accounts, email) ==> s.result == Err(Rewrite(absent))
    ensures HasAccountFor(w.accounts, email) && lookup.Ok? && !EmailTaken(w.table, email) ==>
              s.result == Err(ErrorPrefix + NotRegistered)
    // a failing call's own message, rewritten
    ensures HasAccountFor(w.accounts, email) && lookup.Err? ==> s.result == Err(Rewrite(lookup.message))
    ensures HasAccountFor(w.accounts, email) && lookup.Ok? && EmailTaken(w.table, email) && link.Err? ==>
              s.result == Err(Rewrite(link.message))
    ensures HasAccountFor(w.accounts, email) && lookup.Ok? && EmailTaken(w.table, email) && link.Ok? && sent.Err? ==>
              s.result == Err(Rewrite(sent.message))
    ensures s.result.Ok? <==>
              HasAccountFor(w.accounts, email) && lookup.Ok? && EmailTaken(w.table, email) && link.Ok? && sent.Ok?
    ensures s.result.Ok? ==>
              && s.result.value == ResetSentPrefix + email
              && link.Ok?
              && s.world.outbox == w.outbox + [Mail(email, link.value)]
  {
    var ask := ProviderLookup(email);
    var find := RepoFindByEmail(email);
    var generate := ProviderResetLink(email);
    var found := if HasAccountFor(w.accounts, email) then lookup else Err(absent);
    match found
    case Err(m) => Step(Err(Rewrite(m)), w, [ask])
    case Ok(_) =>
      if FindByEmail(w.table, email).None? then
        NotRegisteredIsPrefixed();
        Step(Err(Rewrite(NotRegistered)), w, [ask, find])
      else
        match link
        case Err(m) => Step(Err(Rewrite(m)), w, [ask, find, generate])
        case Ok(l) =>
          var trace := [ask, find, generate, MailSend(email, l)];
          match sent
          case Err(m) => Step(Err(Rewrite(m)), w, trace)
          case Ok(_) => Step(Ok(ResetSentPrefix + email), w.(outbox := w.outbox + [Mail(email, l)]), trace)
  }

  /** The calls `sendPasswordResetEmail` makes: the provider lookup first; a
      reset link is generated only for an email both the provider and the
      table know, and a mail is sent only after a link was generated; nothing
      is written. */
  lemma SendPasswordResetEmailCalls(w: World, email: string, lookup: Result<()>, absent: string,
                                    link: Result<string>, sent: Result<()>)
    ensures var s := SendPasswordResetEmail(w, email, lookup, absent, link, sent);
            && |s.trace| > 0 && s.trace[0] == ProviderLookup(email)
            && (AsksForResetLink(s.trace) <==>
                  HasAccountFor(w.accounts, email) && lookup.Ok? && EmailTaken(w.table, email))
            && (SendsMail(s.trace) <==> AsksForResetLink(s.trace) && link.Ok?)
            && !WritesTable(s.trace)
  {
    var s := SendPasswordResetEmail(w, email, lookup, absent, link, sent);
    var ask := ProviderLookup(email);
    var find := RepoFindByEmail(email);
    var generate := ProviderResetLink(email);
    if !HasAccountFor(w.accounts, email) || lookup.Err? {
      assert s.trace == [ask];
      Trace1(ask);
    } else if FindByEmail(w.table, email).None? {
      assert s.trace == [ask, find];
      Trace2(ask, find);
    } else if link.Err? {
      assert s.trace == [ask, find, generate];
      Trace3(ask, find, generate);
    } else {
      var mail := MailSend(email, link.value);
      assert s.trace == [ask, find, generate, mail];
      Trace4(ask, find, generate, mail);
    }
  }

  /* ---------------------------------------------------------------- */
  /* updateMyProfile                                                   */
  /* ---------------------------------------------------------------- */

  /** The row a user's own edit produces: roles stay. */
  function SelfEdit(u: User, dto: UserDto): User {
    u.(name := dto.name, lastName := dto.lastName, documentType := dto.documentType,
       documentNumber := dto.documentNumber, cellPhone := dto.cellPhone,
       profileImage := dto.profileImage)
  }

  /** `updateMyProfile(uid, dto)`: overwrite the six profile fields of the row
      `findByFirebaseUid` returns. */
  function UpdateMyProfile(w: World, uid: Uid, dto: UserDto, saved: Result<()>): (s: Step<UserDto>)
    ensures FindByFirebaseUid(w.table, uid).None? ==> s.result == Err(UserNotFound) && s.world == w
    ensures s.world.accounts == w.accounts && s.world.outbox == w.outbox
    ensures s.result.Err? ==> s.world == w
    ensures s.result.Ok? <==> FindByFirebaseUid(w.table, uid).Some? && saved.Ok?
    ensures Wf(w.table) && s.result.Ok? ==>
              var k := FindIndex(w.table.rows, ByUid(uid)).value;
              && OnlyRowChanged(w.table, s.world.table, k)
              && KeepsIdentity(w.table.rows[k], s.world.table.rows[k])
              && CarriesProfile(s.world.table.rows[k], dto)
              && s.world.table.rows[k].role == w.table.rows[k].role
              && s.result.value == ToDto(s.world.table.rows[k])
    ensures TableInv(w.table) ==> TableInv(s.world.table)
  {
    var find := RepoFindByUid(uid);
    match FindIndex(w.table.rows, ByUid(uid))
    case None => Step(Err(UserNotFound), w, [find])
    case Some(k) =>
      var edited := SelfEdit(w.table.rows[k], dto);
      match saved
      case Err(m) => Step(Err(m), w, [find, RepoSave(edited)])
      case Ok(_) =>
        var table := StoreEdit(w.table, k, edited);
        Step(Ok(ToDto(edited)), w.(table := table), [find, RepoSave(edited)])
  }

  /** The calls `updateMyProfile` makes: never the provider, and a save iff
      the caller has a row. */
  lemma UpdateMyProfileCalls(w: World, uid: Uid, dto: UserDto, saved: Result<()>)
    ensures var s := UpdateMyProfile(w, uid, dto, saved);
            && !CallsProvider(s.trace)
            && (WritesTable(s.trace) <==> FindByFirebaseUid(w.table, uid).Some?)
  {
    var s := UpdateMyProfile(w, uid, dto, saved);
    var find := RepoFindByUid(uid);
    match FindIndex(w.table.rows, ByUid(uid))
    case None =>
      assert s.trace == [find];
      Trace1(find);
    case Some(k) =>
      var save := RepoSave(SelfEdit(w.table.rows[k], dto));
      assert s.trace == [find, save];
      Trace2(find, save);
  }

  const MissingFields := "Faltan campos obligatorios"

  /** The `PUT /api/users/me` handler's guard in front of `updateMyProfile`:
      name, last name and document number must be present. */
  function UpdateMyProfileRequest(w: World, uid: Uid, dto: UserDto, saved: Result<()>): (s: Step<UserDto>)
    ensures dto.name.None? || dto.lastName.None? || dto.documentNumber.None? ==>
              s.result == Err(MissingFields) && s.world == w && s.trace == []
    ensures s.trace != [] ==> s.trace[0] == RepoFindByUid(uid)
    ensures s.trace == [] <==> dto.name.None? || dto.lastName.None? || dto.documentNumber.None?
    ensures s.result.Ok? <==>
              && dto.name.Some? && dto.lastName.Some? && dto.documentNumber.Some?
              && FindByFirebaseUid(w.table, uid).Some? && saved.Ok?
  {
    if dto.name.None? || dto.lastName.None? || dto.documentNumber.None? then
      Step(Err(MissingFields), w, [])
    else
      UpdateMyProfile(w, uid, dto, saved)
  }

  /* ---------------------------------------------------------------- */
  /* Reads                                                             */
  /* ---------------------------------------------------------------- */

  /** `findMyProfile(uid)`: scan every row for the first one carrying the
      uid. */
  method FindMyProfile(t: Table, uid: Uid) returns (r: Result<UserDto>)
    ensures r.Err? <==> forall i :: 0 <= i < |t.rows| ==> t.rows[i].firebaseUid != Some(uid)
    ensures r.Err? ==> r.message == UserNotFound
    ensures r.Ok? ==> exists k :: 0 <= k < |t.rows|
                        && t.rows[k].firebaseUid == Some(uid)
                        && (forall j :: 0 <= j < k ==> t.rows[j].firebaseUid != Some(uid))
                        && r.value == ToDto(t.rows[k])
    // the same row the caller's lookup in the other workflows finds
    ensures r.Ok? <==> SelfLookup(t, uid).Some?
    ensures r.Ok? ==> r.value == ToDto(SelfLookup(t, uid).value)
  {
    SelfLookupIsFindByFirebaseUid(t, uid);
    var rows := FindAll(t);
    var i := 0;
    while i < |rows|
      invariant 0 <= i <= |rows|
      invariant forall j :: 0 <= j < i ==> rows[j].firebaseUid != Some(uid)
    {
      if rows[i].firebaseUid == Some(uid) {
        return Ok(ToDto(rows[i]));
      }
      i := i + 1;
    }
    return Err(UserNotFound);
  }

  /** `findAllUsers()`: every row's public view, in table order. */
  function FindAllUsers(t: Table): (r: seq<UserDto>)
    ensures |r| == |t.rows|
    ensures forall i :: 0 <= i < |r| ==> WithPassword(r[i], t.rows[i].password) == t.rows[i]
  {
    seq(|t.rows|, i requires 0 <= i < |t.rows| => ToDto(t.rows[i]))
  }

  /** `findById(id)`: empty, not an error, when no row has the id. */
  function FindUserById(t: Table, id: int): (r: Option<UserDto>)
    ensures r.Some? <==> exists i :: 0 <= i < |t.rows| && t.rows[i].id == Some(id)
    ensures r.Some? ==> r.value.id == Some(id)
    ensures r.Some? ==> exists k :: 0 <= k < |t.rows|
                          && t.rows[k].id == Some(id)
                          && (forall j :: 0 <= j < k ==> t.rows[j].id != Some(id))
                          && r.value == ToDto(t.rows[k])
  {
    match FindById(t, id)
    case None => None
    case Some(u) => Some(ToDto(u))
  }

  /** `findByEmail(email)`: empty, not an error, when no row has the email. */
  function FindUserByEmail(t: Table, email: string): (r: Option<UserDto>)
    ensures r.Some? <==> EmailTaken(t, email)
    ensures r.Some? ==> r.value.email == email
    ensures r.Some? ==> exists k :: 0 <= k < |t.rows|
                          && t.rows[k].email == email
                          && (forall j :: 0 <= j < k ==> t.rows[j].email != email)
                          && r.value == ToDto(t.rows[k])
  {
    match FindByEmail(t, email)
    case None => None
    case Some(u) => Some(ToDto(u))
  }
}
